=== FILE: README.md ===
# A verified model of a small BitTorrent client's download core

This project models, in Dafny, the part of a Python BitTorrent client that
decides what gets downloaded and how bytes are read off the wire:

- **the manifest queries** (`torrent.py`): item lookup, the 20-byte piece hash,
  the info hash and the total size (`torrent.dfy`, module `Manifest`);
- **pieces and blocks** (`download_session.py`): the block layout derived from
  the piece size, saving a block, completion, assembly and flushing
  (`pieces.dfy`, module `Pieces`);
- **the download session** (`download_session.py`): the piece table, the
  in-progress and received index sets, ascending piece selection, and block
  completion with hash verification feeding the output queue (`session.dfy`,
  module `DownloadSession`);
- **the peer wire protocol as the client speaks it** (`peer.py`): the 68-byte
  handshake, the `interested` and `request` messages, and the parser that cuts
  one length-prefixed frame off the receive buffer (`wire.dfy`, module `Wire`);
- **one peer connection** (`peer.py`): the block cursor, `request_a_piece` with
  its cap of two requests in flight, the handling of each message, the inner
  and outer receive loops, and the five connection attempts of `download`
  (`peer.dfy`, module `PeerConnection`);
- **the tracker** (`tracker.py`): the announce parameters, the checks on the
  announce response, and the compact peer list of BEP 23 (`tracker.dfy`,
  module `Tracker`).

`common.dfy` (module `Common`) holds the shared vocabulary: bytes, Python's
clamped slices, big-endian `struct` packing, and `Option`/`Result`. Every
Python exception the core can raise is a value of the `Error` datatype. An
operation that changes state and then raises returns the changed state
together with the error. `DownloadSession.Step` is one such result.

Everything is a pure function over immutable values. Reads from a socket are
an input: the sequence of chunks the reads return. Writes to a socket are
collected in the connection's `sent` list. SHA-1, bencode and the process's
peer id are function parameters (`sha1`, `encodeDigest`/`infoDigest`,
`peerId`).

### Where the code and its documentation differ

The model follows the code. Each difference below is shown by a lemma or
by the contract of the member named with it.

- **The final piece is not shortened.** Every piece gets the same blocks,
  including the last one (`Pieces.LayoutShape`, `Pieces.LayoutExamples`).
- **The last block can be misplaced.** The last block of a piece starts at
  `last_length * index`. When the piece size is not a multiple of 16 KiB,
  that start lies inside the previous block (`Pieces.LastBlockMisplaced`).
- **A failed hash check does not release the piece.** The piece's data is
  discarded (`DownloadSession.OnBlockReceived`), but its flags stay set
  (`Pieces.FlushKeepsFlags`). Only a write releases a piece, so this one stays
  in progress and no selection hands it out again
  (`DownloadSession.UnwrittenPieceStaysClaimed`). A later block for it that
  starts somewhere other than some block of the piece raises TypeError in the
  join (`DownloadSession.FlushedPieceRaisesOnNextBlock`). A one-block piece
  given a block at that block's own begin escapes this: the block takes the
  new data and is checked again.
- **The frame reader checks the wrong length.** It treats a frame as complete
  once the buffer holds `length` bytes, not `4 + length`. Delivery in chunks
  can therefore change what is decoded (`Wire.PartialFrameConsumed`,
  `Wire.SplitDeliveryDiffers`).
- **`have` eats extra bytes.** A `have` frame drops 5 bytes beyond its own
  end (`Wire.HaveSwallowsFiveBytes`).
- **An unknown message id hangs the loop.** The frame is never consumed, so
  the loop spins for ever (`PeerConnection.Spin`).
- **`have` is ignored.** The frame is consumed, but the peer's bitfield is not
  updated, so a piece announced with `have` is never requested from that peer
  (`PeerConnection.Handle`).
- **Running out of pieces is fatal.** When no piece is eligible the peer
  raises and ends; it does not idle (`PeerConnection.NoEligiblePieceIsFatal`).
- **Choking is ignored.** An `unchoke` is recorded, but requests are sent
  whether or not one arrived (`PeerConnection.RequestIgnoresChoking`).
- **End of stream with a partial frame hangs.** The connection ends cleanly
  only when nothing is buffered. Bytes left over from an unfinished frame make
  the loop spin (`PeerConnection.ReadLoop`).
- **An empty peer list is accepted** (`Tracker.EmptyPeerListAccepted`).

## Model

| member | source | states |
|---|---|---|
| Manifest.GetItem | torrent.py:13-14 | the lookup is None exactly when the key is absent, and the stored value otherwise |
| Manifest.GetPieceHash | torrent.py:16-20 | the hash of piece i is at most 20 bytes; it is exactly bytes 20i to 20i+20 when those exist, the bytes from 20i to the end when fewer remain, and empty past the end of `pieces` (a missing `pieces` counts as empty) |
| Manifest.InfoHash | torrent.py:26-33 | fails with the missing-info error exactly when `info` is absent or empty; otherwise it is the digest of the info value |
| Manifest.SumFileLengths | torrent.py:41 | the sum over `files` succeeds exactly when every entry's length can be read |
| Manifest.SumFileLengthsIsTotal | torrent.py:41 | the sum equals the total of the declared lengths, with a missing length counting 0 |
| Manifest.Size | torrent.py:35-43 | the size is `length` when present and an integer (a type error otherwise), else the sum over `files`, else the missing-length error |
| Manifest.FilesSize | torrent.py:41 | a `files` list sums its entries; an empty byte string or empty dictionary sums to 0; a non-empty one, or an integer, is a type error |
| Manifest.MultiFileSize | torrent.py:40-41 | a multi-file manifest whose entries are all readable has the total of their lengths as its size |
| Pieces.SaveBlocks | download_session.py:25-29 | saving at `begin` fills and flags exactly the blocks that start at `begin`; every other block is unchanged and no block's range moves |
| Pieces.SaveBlockCompletes | download_session.py:22-29 | a save completes a piece exactly when every block not yet downloaded starts at the saved offset |
| Pieces.Concat | download_session.py:31-33 | the join fails exactly when some block has no data; otherwise its length is the sum of the blocks' data lengths |
| Pieces.ConcatPlacesBlock | download_session.py:31-33 | for any blocks that all hold data, block j's data sits in the join right after the data of blocks 0 to j - 1 |
| Pieces.TiledContentLength | download_session.py:31-33 | blocks that lie end to end with data of their declared lengths assemble into content exactly as long as their range |
| Pieces.TiledContentAt | download_session.py:31-33 | in such a tiling, each block's data sits in the content at the block's offset |
| Pieces.Flush | download_session.py:18-20 | a flush empties every block's data and keeps every range and every downloaded flag |
| Pieces.FlushKeepsFlags | download_session.py:18-23 | a flushed piece is complete exactly when it was before, and a flushed piece with blocks cannot be assembled |
| Pieces.CeilDiv | download_session.py:61 | the piece count q is the least integer with q times the piece size at least the total size |
| Pieces.LayoutShape | download_session.py:90-110 | the table has ceil(size / piece size) pieces; each, the final one included, has ceil(piece size / 16 KiB) empty, unflagged blocks tagged with its own index |
| Pieces.BlockLengthsSumToPieceSize | download_session.py:92-101 | all blocks but the last are 16 KiB; the last is the remainder, or 16 KiB when there is none; the lengths add up to the piece size |
| Pieces.AlignedBlocksTile | download_session.py:102-108 | when the piece size is a multiple of 16 KiB, block j starts at j * 16 KiB and the filled blocks assemble into exactly piece-size bytes |
| Pieces.LastBlockMisplaced | download_session.py:96-106 | when the piece size is not a multiple of 16 KiB, the last block overlaps the one before it and the end of the piece is never covered |
| Pieces.LayoutExamples | download_session.py:92-109 | the concrete layouts of 32 KiB pieces, of a 40000-byte file cut into two full 32 KiB pieces, and of a 40000-byte piece |
| DownloadSession.NewSession | download_session.py:58-65 | a new session has the piece length and size read from the manifest, ceil(size / piece length) pieces laid out from that length, and nothing claimed, received or queued; a missing `info` or one that is not a dictionary is a type error, a missing piece length a KeyError, then a size error, then a zero piece length a division error and a non-integer one a type error |
| DownloadSession.Scan | download_session.py:113-123 | the scan returns the first free piece whose bit is set, every free piece before it having its bit unset; it reports no eligible piece exactly when every free piece has its bit unset, and raises IndexError on a free piece past the end of the bitfield |
| DownloadSession.GetPieceRequest | download_session.py:112-123 | the claimed piece is eligible, no earlier free piece is, and the only change is adding it to the in-progress set |
| DownloadSession.SelectionIsLowestEligible | download_session.py:112-122 | if piece k is eligible and every free piece before k has its bit unset, selection claims k |
| DownloadSession.FullBitfieldNeverOutOfRange | download_session.py:120 | a bitfield as long as the table never makes selection raise IndexError |
| DownloadSession.ClaimPreservesValid | download_session.py:121 | a claim keeps the in-progress and received sets disjoint and inside the table |
| DownloadSession.OnBlockReceived | download_session.py:67-88 | only piece `idx`, the two sets and the queue change. An incomplete piece only records the block. A mismatch flushes the piece and queues nothing. A match keeps the saved blocks, queues (index * piece size, content) and moves the index from in-progress to received, raising KeyError if it was not in progress. An index past the table raises before anything changes |
| DownloadSession.OnBlockReceivedPreservesValid | download_session.py:86-88 | receiving a block, whatever the outcome, keeps the two sets disjoint and inside the table |
| DownloadSession.OnBlockReceivedKeepsQueueVerified | download_session.py:74-86 | every queued write holds bytes whose digest is the manifest's hash for the piece at that offset |
| DownloadSession.UnwrittenPieceStaysClaimed | download_session.py:79-88 | a claimed piece leaves the in-progress set only when it is written out. A block that writes nothing, such as one that ends in a hash mismatch, leaves it claimed, and selection never hands it out again |
| DownloadSession.FlushedPieceRaisesOnNextBlock | download_session.py:67-82 | a piece that is complete but holds no data, which is what a mismatch leaves, raises TypeError in the join on the next block unless that block starts where every block starts. Nothing is released or written |
| DownloadSession.DuplicateDeliveryRewrites | download_session.py:86-88 | a block for a piece already received writes it to the queue again and raises KeyError |
| Wire.Handshake | peer.py:22-29 | the handshake is 68 bytes: 19, "BitTorrent protocol", 8 zero bytes, the 20-byte info hash and the 20-byte peer id |
| Wire.InterestedMessage | peer.py:31-32 | `interested` is the big-endian length 1 followed by id 2 |
| Wire.RequestMessage | peer.py:54 | a request is 17 bytes, length 13, id 6, then piece, begin and length big-endian; a field outside 32 bits is a struct error |
| Wire.ParsePiece | peer.py:167-176 | a piece frame yields (index, begin, block) of length `length - 9` exactly when `length >= 9` and the whole frame is buffered; otherwise it is a decoding error |
| Wire.NextFrame | peer.py:95-165 | the loop waits exactly when fewer than 4 bytes are buffered, fewer than `length`, or fewer than 5 for a non-empty frame; a keep-alive consumes 4 bytes; a known id consumes `4 + length` bytes and `have` 5 more; an unknown id consumes nothing; the bitfield payload is bytes 5 to `4 + length`; once a non-empty frame is complete, id 0 is choke, 1 unchoke, 2 interested, 3 not interested, 4 have, 5 a bitfield, 7 a piece, and exactly the other ids are unknown |
| Wire.FrameRoundTrip | peer.py:99-165 | a complete frame at the front of the buffer decodes to the message it encodes, and exactly its bytes are consumed |
| Wire.InterestedRoundTrip | peer.py:135-139 | the client's own `interested` message decodes as `interested` |
| Wire.HaveSwallowsFiveBytes | peer.py:147-150 | a `have` frame consumes the first 5 bytes of whatever follows it |
| Wire.PartialFrameConsumed | peer.py:99-102 | a frame missing up to 4 of its final bytes is already handled, and the partial frame is consumed whole |
| Wire.ShortPieceFrameIsBad | peer.py:162-171 | a piece frame with fewer than 9 bytes after its prefix is the struct-error case: the block format gets a negative count |
| Wire.SplitDeliveryDiffers | peer.py:154-159 | the first 5 bytes of a bitfield frame decode as an empty bitfield, while the whole frame decodes with all its payload |
| Wire.Bits | peer.py:156 | the bitfield has 8 bits per byte, bit k of byte i at position 8i + k, most significant bit first |
| PeerConnection.NewPeer | peer.py:14-20 | a new peer has one unset bit per piece, nothing in flight and no block cursor |
| PeerConnection.NextRequest | peer.py:36-45 | the next block is the head of the cursor; with an empty cursor, a piece is claimed from the session and its first block returned; selection errors pass through and only the in-progress set grows |
| PeerConnection.NextRequestClaimsOne | peer.py:36-45 | with an empty cursor, the session's selection error is returned unchanged, or exactly the piece it selects is claimed, its first block is pulled and its other blocks become the cursor |
| PeerConnection.NextRequestIgnoresChoking | peer.py:36-45 | pulling a block gives the same block, state and error whatever the choke flag |
| PeerConnection.RequestIgnoresChoking | peer.py:47-57 | a request is written, with the same state afterwards and the same error, whether or not the peer has unchoked |
| PeerConnection.RequestAPiece | peer.py:47-57 | with more than one request in flight nothing happens; otherwise exactly one 17-byte request is written, for the block the generator yields next, and the count rises by one, so it never exceeds two; the claimed pieces and the cursor afterwards are those left by pulling that block, even when the request then fails |
| PeerConnection.Handle | peer.py:123-176 | unchoke sets the flag; a bitfield replaces the peer's bits and answers `interested`; a piece lowers the in-flight count and hands the block to the session, raising exactly the exception the session raises; a malformed piece returns from the connection; a bitfield leaves the choke flag alone |
| PeerConnection.Spin | peer.py:178-181 | an unknown id either raises from a request or hangs with two requests in flight, having written one request per step: exactly as many as it took to reach two, after the messages already written; a request that raises ends it with that exception and the state the request left |
| PeerConnection.Drain | peer.py:95-181 | the inner loop stops for more bytes only on a buffer that cannot yet be decoded, never longer than it was given |
| PeerConnection.ReadLoop | peer.py:86-93 | a read of nothing on an empty buffer ends the connection; at the end of the stream leftover bytes make the loop spin for ever |
| PeerConnection.Connection | peer.py:78-93 | a connection writes the handshake for the manifest's info hash and then `interested`, or raises the missing-info error before writing anything; after the two writes it is the receive loop from an empty buffer over the reads after the handshake reply |
| PeerConnection.WholeFrameReadIsHandled | peer.py:86-102 | a read holding one whole frame is appended to the empty buffer, handled and answered with one request, and the next read starts from an empty buffer |
| PeerConnection.SplitAtWaitIsHarmless | peer.py:86-102 | bytes accumulate across reads: splitting the stream where the buffer is still short of a frame gives the same run as one joined read |
| PeerConnection.DrainPreservesSound | peer.py:47-56 | whatever bytes arrive, the inner loop keeps at most two requests in flight and the session's sets disjoint and in range |
| PeerConnection.ReadLoopPreservesSound | peer.py:86-181 | the same holds over all the reads of a connection |
| PeerConnection.ConnectionPreservesSound | peer.py:68-181 | the same holds over a whole connection, and messages once written stay written |
| PeerConnection.DrainWaitsOnPartialFrame | peer.py:96-102 | a buffer that does not yet hold a frame is kept whole for the next read and nothing changes |
| PeerConnection.DrainSpinsOnUnknownId | peer.py:178-181 | a complete frame with an unhandled id is not consumed: the loop only requests, and with two requests in flight it hangs on the same bytes |
| PeerConnection.DrainSkipsKeepAlive | peer.py:111-116 | a keep-alive is dropped and the loop goes on without requesting anything |
| PeerConnection.DrainConsumesOneFrame | peer.py:123-181 | a complete frame is handled once, one request follows, and the loop goes on with exactly the bytes after the frame |
| PeerConnection.DrainStopsWhenHandlingStops | peer.py:162-176 | an exception while handling a frame ends the loop with that exception, and no request follows |
| PeerConnection.DrainReturnsOnBadPiece | peer.py:162-176 | a piece frame that cannot be unpacked lowers the in-flight count and returns from the connection, with no request |
| PeerConnection.DrainAnswersHave | peer.py:146-151 | a `have` changes nothing but is answered with a request, or with the exception the request raises, and the loop goes on 5 bytes past the frame |
| PeerConnection.NoEligiblePieceIsFatal | peer.py:50-51 | with an empty cursor and no eligible piece, the next request raises and ends the receive loop |
| PeerConnection.Download | peer.py:59-66 | at most five connection attempts are made, with state carried between them; fewer than five only when a connection raised or hung |
| Tracker.HandleBytes | tracker.py:68-80 | every decoded peer has a 4-byte address that is not the client's own and a 16-bit port; there are at most len / 6 of them; a bad record is an address or struct error |
| Tracker.HandleFirstRecord | tracker.py:70-79 | the client's own record is skipped; any other whole record becomes the first peer, ahead of the rest's peers, and a failure in the rest is the result; a record of 1 to 3 bytes is an address error, and one of 4 or 5 bytes with a foreign address a struct error |
| Tracker.WholeRecordsDecode | tracker.py:69-80 | a whole number of records, none of them the client's own, decodes to one peer per record, in record order |
| Tracker.CompactRoundTrip | tracker.py:70-79 | decoding the compact encoding of a peer list without the client's address gives the list back |
| Tracker.TrailerDecides | tracker.py:71-78 | a trailing partial record of 1 to 3 bytes is an address error; one of 4 or 5 bytes is a struct error unless its address is the client's own, when it is skipped |
| Tracker.ParsePeers | tracker.py:82-89 | the compact form is decoded, the dictionary form is not implemented, and any other type has no handler |
| Tracker.GetPeers | tracker.py:18-27 | a failure reason is always an error: RuntimeError when it is well-formed UTF-8 bytes, a decode error when it is bytes that are not, and an attribute error when it is not bytes. Then a missing `peers` entry is an error; otherwise the peers are parsed |
| Tracker.AsciiIsUtf8 | tracker.py:20 | ASCII bytes always decode as UTF-8 |
| Tracker.Utf8Examples | tracker.py:20 | the decode rejects a lone continuation byte, an overlong form, a surrogate, a code point past U+10FFFF and a cut-off sequence, and accepts a two-byte character |
| Tracker.AsciiFailureReasonRefuses | tracker.py:19-21 | a failure reason in ASCII always ends in the RuntimeError, whatever else the response holds |
| Tracker.EmptyPeerListAccepted | tracker.py:23-27 | an empty compact peer list yields no peers and no error |
| Tracker.AnnounceParams | tracker.py:45-61 | the announce carries the info hash, left = total size, uploaded = downloaded = 0, compact = 1, no_peer_id = 0, event "started" and port 59696; a missing info dictionary or size is an error, the info hash checked first |

## Left out

- Sockets, `asyncio` and timeouts. Reads are an input sequence of chunks and
  writes a list of messages. A connect timeout and a refused connection are
  inputs to `Download`; attempts past the end of that input are refused.
  `writer.drain` is not modelled.
- Concurrency between peers (`client.py`). The session operations are atomic
  sequential steps.
- SHA-1 and bencode encoding and decoding. They are function parameters; the
  manifest and the tracker response arrive decoded. The HTTP request to the
  tracker and its URL encoding are left out too.
- `ipaddress` and `socket`. A peer's address is its 4 bytes, compared with
  192.168.99.1.
- Logging, `__repr__`, `announce_url`, reading the manifest file, and the file
  writer that consumes the output queue.
- `client.py`, `__init__.py` and the rest of `util.py`: entry-point code,
  outside this model. Only `REQUEST_SIZE` is used.
- Manifest.InfoDict: a non-dictionary `info` fails with a type error. This
  stands in for the different exceptions Python raises at each use.
- DownloadSession.NewSession: a non-integer piece length or file length is a
  type error. The number of pieces is computed in exact integer arithmetic,
  not as `math.ceil` of a float division, which can round differently for
  very large sizes.
- Manifest.GetPieceHash: a `pieces` entry that is a list is a type error
  here. Python slices the list instead; the digest never equals the slice, so
  the piece is flushed as on any mismatch.
- Manifest.Size: a `length` given as a byte string of digits is a type error
  here, but Python's `int()` parses it. The same holds for `length` in a
  `files` entry (`Manifest.FilesSize`).
- Wire.NextFrame: the message id is read as an unsigned byte. The source reads
  it signed, but ids of 128 and above are unknown either way, so decoding is
  the same.
- PeerConnection.Connection: the first chunk stands for the handshake reply,
  which is read and ignored. The sizes the code asks for are not imposed on
  the chunks: up to 68 bytes for the reply, up to 16 KiB for each later read.
- PeerConnection.Download: the ensures relate the attempts to the outcome but
  do not replay each connection's run in the contract.

=== FILE: common.dfy ===
/** Shared vocabulary of the model: bytes, Python's clamped slicing, the
    big-endian integers of the wire formats, and the Option/Result wrappers
    that stand for Python's `None` returns and raised exceptions. */
module Common {

  type byte = b: int | 0 <= b < 256

  datatype Option<+T> = None | Some(value: T)

  /** The exceptions the modelled code can raise, one per Python exception
      (or per distinct message of a generic one). */
  datatype Error =
    | KeyMissing        // KeyError: lookup of an absent dictionary key
    | TypeMismatch      // TypeError / AttributeError: a value of the wrong shape
    | IndexOutOfRange   // IndexError
    | ZeroDivision      // ZeroDivisionError
    | StructError       // struct.error: a pack/unpack whose sizes or ranges do not fit
    | AddressError      // ipaddress.AddressValueError: an address that is not 4 bytes
    | NotImplemented    // NotImplementedError
    | NoInfo            // ValueError: the manifest has no `info` dictionary
    | NoLength          // ValueError: the manifest has neither `length` nor `files`
    | NoEligiblePiece   // Exception: no piece left that the peer can serve
    | UnicodeDecode     // UnicodeDecodeError: bytes that are not well-formed UTF-8
    | TrackerFailure    // RuntimeError: the tracker answered with a failure reason
    | NoPeers           // RuntimeError: the tracker answer has no `peers` entry

  datatype Result<+T> = Ok(value: T) | Fail(error: Error) {
    predicate IsFailure() {
      Fail?
    }

    function PropagateFailure<U>(): Result<U>
      requires Fail?
    {
      Fail(error)
    }

    function Extract(): T
      requires Ok?
    {
      value
    }
  }

  function Min(a: int, b: int): (m: int)
    ensures m <= a && m <= b && (m == a || m == b)
  {
    if a <= b then a else b
  }

  function Max(a: int, b: int): (m: int)
    ensures m >= a && m >= b && (m == a || m == b)
  {
    if a <= b then b else a
  }

  /** Python's `s[lo:hi]` for non-negative bounds: both ends are clamped to
      the length, and a reversed range is empty. */
  function Slice<T>(s: seq<T>, lo: nat, hi: nat): (r: seq<T>)
    ensures |r| == if lo >= |s| || hi <= lo then 0 else Min(hi, |s|) - lo
    ensures lo <= hi <= |s| ==> r == s[lo..hi]
    ensures lo < |s| && lo <= hi ==> r == s[lo..Min(hi, |s|)]
  {
    var a := Min(lo, |s|);
    var b := Min(hi, |s|);
    if a <= b then s[a..b] else []
  }

  /** Python's `s[n:]`. */
  function Drop<T>(s: seq<T>, n: nat): (r: seq<T>)
    ensures |r| == Max(0, |s| - n)
    ensures n <= |s| ==> r == s[n..]
  {
    s[Min(n, |s|)..]
  }

  /** Python's `s[:n]`. */
  function Take<T>(s: seq<T>, n: nat): (r: seq<T>)
    ensures |r| == Min(n, |s|)
    ensures r <= s
  {
    s[..Min(n, |s|)]
  }

  const Two16: nat := 0x1_0000
  const Two32: nat := 0x1_0000_0000

  /** `struct.unpack('>I', b)`: a 4-byte unsigned big-endian integer. */
  function Unpack32(b: seq<byte>): (n: nat)
    requires |b| == 4
    ensures n < Two32
  {
    b[0] as int * 0x100_0000 + b[1] as int * 0x1_0000 + b[2] as int * 0x100 + b[3] as int
  }

  /** `struct.pack('>I', n)` for a value that fits in 32 bits. */
  function Pack32(n: nat): (b: seq<byte>)
    requires n < Two32
    ensures |b| == 4
    ensures Unpack32(b) == n
  {
    Pack32Digits(n);
    [n / 0x100_0000, (n / 0x1_0000) % 0x100, (n / 0x100) % 0x100, n % 0x100]
  }

  /** The base-256 digits of a 32-bit value, most significant first, put it
      back together. */
  lemma Pack32Digits(n: nat)
    requires n < Two32
    ensures n / 0x100_0000 < 0x100
    ensures n == (n / 0x100_0000) * 0x100_0000 + ((n / 0x1_0000) % 0x100) * 0x1_0000
                 + ((n / 0x100) % 0x100) * 0x100 + n % 0x100
  {
    var x1 := n / 0x100;
    var x2 := n / 0x1_0000;
    var x3 := n / 0x100_0000;
    assert n == x1 * 0x100 + n % 0x100;
    assert x1 / 0x100 == x2;
    assert x1 == x2 * 0x100 + x1 % 0x100;
    assert x2 / 0x100 == x3;
    assert x2 == x3 * 0x100 + x2 % 0x100;
  }

  /** `struct.unpack('>H', b)`: a 2-byte unsigned big-endian integer. */
  function Unpack16(b: seq<byte>): (n: nat)
    requires |b| == 2
    ensures n < Two16
  {
    b[0] as int * 0x100 + b[1] as int
  }

  /** `struct.pack('>H', n)`. */
  function Pack16(n: nat): (b: seq<byte>)
    requires n < Two16
    ensures |b| == 2
    ensures Unpack16(b) == n
  {
    [n / 0x100, n % 0x100]
  }

  /** `n` zero bytes (struct's `x` padding). */
  function Zeros(n: nat): (r: seq<byte>)
    ensures |r| == n
    ensures forall i :: 0 <= i < n ==> r[i] == 0
  {
    seq(n, _ => 0)
  }

  /** struct's `<n>s` field: the bytes truncated or zero-padded to exactly `n`. */
  function Fixed(s: seq<byte>, n: nat): (r: seq<byte>)
    ensures |r| == n
    ensures |s| >= n ==> r == s[..n]
    ensures |s| <= n ==> r[..|s|] == s && forall i :: |s| <= i < n ==> r[i] == 0
  {
    if |s| >= n then s[..n] else s + Zeros(n - |s|)
  }
}

=== FILE: peer.dfy ===
/** One peer connection: the per-peer state, the flow-controlled request
    pipeline, the handling of each received message, the receive loop over
    the incoming bytes, and the bounded reconnection loop. Socket reads are
    inputs (the sequence of chunks the reads return); socket writes are collected in `sent`. */
module PeerConnection {
  import opened Common
  import opened Manifest
  import opened Pieces
  import opened DownloadSession
  import opened Wire

  /** Code the peer calls but that is not modelled: SHA-1 of piece bytes,
      SHA-1 of the bencoded info dictionary, and the process's peer id. */
  datatype Externals = Externals(
    sha1: seq<byte> -> seq<byte>,
    infoDigest: BValue -> seq<byte>,
    peerId: seq<byte>)

  /** A block the request cursor hands out. */
  datatype Request = Request(piece: int, begin: int, length: int)

  /** Per-peer state: the peer's bitfield, the requests sent and not yet
      answered, whether an unchoke arrived, and the cursor — the blocks of
      the piece last claimed that are still to be requested. */
  datatype PeerState = PeerState(have: seq<bool>, inflight: int, unchoked: bool, cursor: seq<Request>)

  /** A connection's view of the world: its own state, the shared session,
      and every message written to the socket so far. */
  datatype Conn = Conn(peer: PeerState, session: Session, sent: seq<seq<byte>>)

  /** The most requests a connection has outstanding. */
  const MaxInflight: int := 2

  /** Connection attempts `download` makes. */
  const MaxAttempts: nat := 5

  /** `Peer(session, host, port)`: nothing claimed, nothing in flight, and a
      bitfield of one unset bit per piece. */
  function NewPeer(numberOfPieces: int): (p: PeerState)
    ensures |p.have| == Max(0, numberOfPieces)
    ensures forall i :: 0 <= i < |p.have| ==> !p.have[i]
    ensures p.inflight == 0 && !p.unchoked && p.cursor == []
  {
    PeerState(seq(Max(0, numberOfPieces), _ => false), 0, false, [])
  }

  /** Pieces neither verified nor claimed. */
  function FreeSet(s: Session): set<nat>
  {
    set i: nat | i < |s.pieces| && Free(s, i)
  }

  /** A claim takes one piece out of the free set. */
  lemma ClaimShrinksFreeSet(s: Session, have: seq<bool>)
    requires GetPieceRequest(s, have).Ok?
    ensures |FreeSet(GetPieceRequest(s, have).value.session)| < |FreeSet(s)|
  {
    var c := GetPieceRequest(s, have).value;
    assert FreeSet(c.session) == FreeSet(s) - {c.index};
  }

  /** The byte ranges of a block list, in order. */
  function Requests(bs: seq<Block>): (r: seq<Request>)
    ensures |r| == |bs|
    ensures forall j :: 0 <= j < |bs| ==> r[j] == Request(bs[j].piece, bs[j].begin, bs[j].length)
  {
    seq(|bs|, j requires 0 <= j < |bs| => Request(bs[j].piece, bs[j].begin, bs[j].length))
  }

  /** The result of pulling the next block off the cursor. */
  datatype Pull = Pulled(conn: Conn, req: Request) | PullFailed(conn: Conn, error: Error)

  /** `next(blocks_generator)`: the cursor's next block; when the cursor is
      empty, a new piece is claimed from the session and its blocks become
      the cursor. A claimed piece with no blocks is passed over. */
  function NextRequest(c: Conn): (r: Pull)
    ensures r.conn.sent == c.sent
    ensures r.conn.peer.have == c.peer.have && r.conn.peer.inflight == c.peer.inflight
    ensures r.conn.peer.unchoked == c.peer.unchoked
    ensures r.conn.session.pieces == c.session.pieces && r.conn.session.received == c.session.received
    ensures r.conn.session.queue == c.session.queue && r.conn.session.torrent == c.session.torrent
    ensures r.conn.session.pieceSize == c.session.pieceSize
    ensures c.session.inProgress <= r.conn.session.inProgress
    ensures Valid(c.session) ==> Valid(r.conn.session)
    ensures c.peer.cursor != [] ==> r == Pulled(c.(peer := c.peer.(cursor := c.peer.cursor[1..])), c.peer.cursor[0])
    ensures r.PullFailed? ==> r.error == NoEligiblePiece || r.error == IndexOutOfRange
    ensures r.Pulled? && c.peer.cursor == [] ==>
              exists k :: k in r.conn.session.inProgress - c.session.inProgress && k < |c.session.pieces|
                && |c.session.pieces[k].blocks| > 0 && r.req == Request(c.session.pieces[k].blocks[0].piece, c.session.pieces[k].blocks[0].begin,
                                    c.session.pieces[k].blocks[0].length)
    decreases |FreeSet(c.session)|, |c.peer.cursor|
  {
    if c.peer.cursor != [] then
      Pulled(c.(peer := c.peer.(cursor := c.peer.cursor[1..])), c.peer.cursor[0])
    else
      match GetPieceRequest(c.session, c.peer.have)
      case Fail(e) => PullFailed(c, e)
      case Ok(claim) =>
        ClaimShrinksFreeSet(c.session, c.peer.have);
        var blocks := Requests(claim.session.pieces[claim.index].blocks);
        NextRequest(c.(session := claim.session, peer := c.peer.(cursor := blocks)))
  }

  /** With the cursor empty, the session picks the piece: its error passes
      through unchanged, or exactly the piece it claims is added, that
      piece's first block is pulled and the rest of its blocks become the
      cursor. */
  lemma NextRequestClaimsOne(c: Conn)
    requires c.peer.cursor == []
    ensures GetPieceRequest(c.session, c.peer.have).Fail? ==>
              NextRequest(c) == PullFailed(c, GetPieceRequest(c.session, c.peer.have).error)
    ensures GetPieceRequest(c.session, c.peer.have).Ok? ==>
              var claim := GetPieceRequest(c.session, c.peer.have).value;
              var blocks := Requests(claim.session.pieces[claim.index].blocks);
              blocks != [] ==>
                NextRequest(c) == Pulled(c.(session := claim.session, peer := c.peer.(cursor := blocks[1..])), blocks[0])
  {
    match GetPieceRequest(c.session, c.peer.have)
    case Fail(_) =>
    case Ok(claim) =>
      var blocks := Requests(claim.session.pieces[claim.index].blocks);
      var next := c.(session := claim.session, peer := c.peer.(cursor := blocks));
      assert blocks != [] ==>
        next.(peer := next.peer.(cursor := blocks[1..])) == c.(session := claim.session, peer := c.peer.(cursor := blocks[1..]));
  }

  /** The result of `request_a_piece`. */
  datatype Sending = Sent(conn: Conn) | SendFailed(conn: Conn, error: Error)

  /** `request_a_piece`: with two requests outstanding, nothing; otherwise the
      next block is requested and the in-flight count goes up by one. */
  function RequestAPiece(c: Conn): (r: Sending)
    ensures c.peer.inflight > 1 ==> r == Sent(c)
    ensures r.conn.peer.have == c.peer.have && r.conn.peer.unchoked == c.peer.unchoked
    ensures Valid(c.session) ==> Valid(r.conn.session)
    ensures r.conn.session.pieces == c.session.pieces && r.conn.session.received == c.session.received
    ensures r.conn.session.queue == c.session.queue && r.conn.session.torrent == c.session.torrent
    ensures r.conn.session.pieceSize == c.session.pieceSize
    ensures r.SendFailed? ==> r.conn.sent == c.sent && r.conn.peer.inflight == c.peer.inflight
    ensures r.Sent? && c.peer.inflight <= 1 ==>
              && r.conn.peer.inflight == c.peer.inflight + 1
              && |r.conn.sent| == |c.sent| + 1 && r.conn.sent[..|c.sent|] == c.sent
              && |r.conn.sent[|c.sent|]| == 17 && r.conn.sent[|c.sent|][4] == RequestId
    // The request sent is the one for the block pulled next.
    ensures r.Sent? && c.peer.inflight <= 1 ==>
              && NextRequest(c).Pulled?
              && RequestMessage(NextRequest(c).req.piece, NextRequest(c).req.begin, NextRequest(c).req.length)
                 == Ok(r.conn.sent[|c.sent|])
    // Pulling the block is what claims pieces and advances the cursor, and
    // that happens even when the request then fails.
    ensures c.peer.inflight <= 1 ==>
              r.conn.session == NextRequest(c).conn.session && r.conn.peer.cursor == NextRequest(c).conn.peer.cursor
    ensures r.conn.peer.inflight <= Max(MaxInflight, c.peer.inflight)
  {
    if c.peer.inflight > 1 then Sent(c)
    else
      match NextRequest(c)
      case PullFailed(c', e) => SendFailed(c', e)
      case Pulled(c', req) =>
        match RequestMessage(req.piece, req.begin, req.length)
        case Fail(e) => SendFailed(c', e)
        case Ok(msg) =>
          Sent(c'.(sent := c'.sent + [msg], peer := c'.peer.(inflight := c'.peer.inflight + 1)))
  }

  /** What handling one message leads to: go on, return from the connection
      (the retry loop goes on), or raise (the peer is finished). */
  datatype Handled = Continue(conn: Conn) | Return(conn: Conn) | Raise(conn: Conn, error: Error)

  /** The body of the receive loop for one message. The loop drops
      keep-alives before it gets here; one handled here would change nothing. */
  function Handle(m: Message, c: Conn, ext: Externals): (r: Handled)
    ensures m.Choke? || m.Interested? || m.NotInterested? || m.Have? || m.KeepAlive? ==> r == Continue(c)
    ensures m.Unchoke? ==> r == Continue(c.(peer := c.peer.(unchoked := true)))
    // A bitfield replaces the peer's bitfield, byte by byte and most
    // significant bit first, and is answered with `interested`.
    ensures m.Bitfield? ==>
              && r.Continue?
              && |r.conn.peer.have| == 8 * |m.payload|
              && (forall i, k :: 0 <= i < |m.payload| && 0 <= k < 8 ==>
                    r.conn.peer.have[8 * i + k] == ByteBits(m.payload[i])[k])
              && r.conn.peer.inflight == c.peer.inflight && r.conn.peer.cursor == c.peer.cursor
              && r.conn.peer.unchoked == c.peer.unchoked
              && r.conn.session == c.session
              && r.conn.sent == c.sent + [InterestedMessage()]
    ensures m.BadPiece? ==> r == Return(c.(peer := c.peer.(inflight := c.peer.inflight - 1)))
    ensures m.PieceData? ==>
              && r.conn.peer == c.peer.(inflight := c.peer.inflight - 1)
              && r.conn.sent == c.sent
              && r.conn.session == OnBlockReceived(c.session, m.index, m.begin, m.block, ext.sha1).session
              && (r.Raise? <==> OnBlockReceived(c.session, m.index, m.begin, m.block, ext.sha1).error.Some?)
              && (r.Raise? ==> r.error == OnBlockReceived(c.session, m.index, m.begin, m.block, ext.sha1).error.value)
              && !r.Return?
  {
    match m
    case Unchoke => Continue(c.(peer := c.peer.(unchoked := true)))
    case Bitfield(payload) =>
      Continue(c.(peer := c.peer.(have := Bits(payload)), sent := c.sent + [InterestedMessage()]))
    case PieceData(index, begin, block) =>
      var step := OnBlockReceived(c.session, index, begin, block, ext.sha1);
      var c' := c.(peer := c.peer.(inflight := c.peer.inflight - 1), session := step.session);
      if step.error.Some? then Raise(c', step.error.value) else Continue(c')
    case BadPiece => Return(c.(peer := c.peer.(inflight := c.peer.inflight - 1)))
    case _ => Continue(c)
  }

  /** How a run of the receive loop ends: it needs more bytes (with what is
      left of the buffer), the peer closed the stream, a piece frame could not
      be unpacked (the connection returns), an exception ends the peer, or the
      loop spins forever without reading. */
  datatype End = NeedMore(buf: seq<byte>) | PeerClosed | Abandoned | Raised(error: Error) | Hung

  datatype Run = Run(conn: Conn, end: End)

  /** An unknown id consumes nothing, so the inner loop meets it again and
      again, calling `request_a_piece` each time; once two requests are in
      flight that call does nothing and the loop spins for ever. */
  function Spin(c: Conn): (r: Run)
    ensures r.end == Hung || r.end.Raised?
    ensures r.end == Hung ==> r.conn.peer.inflight > 1
    // Each step up to two in flight writes one request: a hung loop has
    // written exactly as many as it took to reach two.
    ensures r.end == Hung ==>
              && r.conn.peer.inflight == Max(MaxInflight, c.peer.inflight)
              && |r.conn.sent| == |c.sent| + Max(0, MaxInflight - c.peer.inflight)
              && r.conn.sent[..|c.sent|] == c.sent
    // A request that raises ends the spin with its exception and with the
    // state it left.
    ensures c.peer.inflight <= 1 && RequestAPiece(c).SendFailed? ==>
              r == Run(RequestAPiece(c).conn, Raised(RequestAPiece(c).error))
    decreases Max(0, MaxInflight - c.peer.inflight)
  {
    if c.peer.inflight > 1 then Run(c, Hung)
    else match RequestAPiece(c)
      case SendFailed(c', e) => Run(c', Raised(e))
      case Sent(c') => Spin(c')
  }

  /** The inner receive loop: handles frames off the front of the buffer
      until it must wait for more bytes or the connection ends. */
  function Drain(buf: seq<byte>, c: Conn, ext: Externals): (r: Run)
    ensures r.end.NeedMore? ==> NextFrame(r.end.buf).Wait? && |r.end.buf| <= |buf|
    decreases |buf|
  {
    match NextFrame(buf)
    case Wait => Run(c, NeedMore(buf))
    case Unknown(_) => Spin(c)
    case Frame(m, rest) =>
      if m == KeepAlive then Drain(rest, c, ext)
      else match Handle(m, c, ext)
        case Return(c') => Run(c', Abandoned)
        case Raise(c', e) => Run(c', Raised(e))
        case Continue(c') =>
          match RequestAPiece(c')
          case SendFailed(c'', e) => Run(c'', Raised(e))
          case Sent(c'') => Drain(rest, c'', ext)
  }

  /** The outer receive loop over the successive results of `reader.read`.
      Once the chunks run out the stream is at its end and every read returns
      no bytes: with an empty buffer the connection returns, otherwise the
      loop spins on the unfinished frame for ever. */
  function ReadLoop(chunks: seq<seq<byte>>, buf: seq<byte>, c: Conn, ext: Externals): (r: Run)
    ensures !r.end.NeedMore?
    // A read that returns nothing with nothing buffered ends the connection.
    ensures chunks != [] && buf == [] && chunks[0] == [] ==> r == Run(c, PeerClosed)
    // At the end of the stream, bytes left over from an unfinished frame
    // keep the loop going for ever.
    ensures chunks == [] ==> r.conn == c && (r.end == PeerClosed <==> buf == []) && (buf != [] ==> r.end == Hung)
    decreases |chunks|
  {
    if chunks == [] then
      if buf == [] then Run(c, PeerClosed) else Run(c, Hung)
    else
      var buf' := buf + chunks[0];
      if buf' == [] then Run(c, PeerClosed)
      else
        var run := Drain(buf', c, ext);
        if run.end.NeedMore? then ReadLoop(chunks[1..], run.end.buf, run.conn, ext)
        else run
  }

  /** `_download` once connected: send the handshake, read (and ignore) the
      handshake reply, send `interested`, then run the receive loop. */
  function Connection(c: Conn, ext: Externals, chunks: seq<seq<byte>>): (r: Run)
    ensures InfoHash(c.session.torrent, ext.infoDigest).Fail? ==> r == Run(c, Raised(NoInfo))
    ensures InfoHash(c.session.torrent, ext.infoDigest).Ok? ==>
              && |r.conn.sent| >= |c.sent| + 2
              && r.conn.sent[|c.sent|] == Handshake(InfoHash(c.session.torrent, ext.infoDigest).value, ext.peerId)
              && r.conn.sent[|c.sent| + 1] == InterestedMessage()
    // After the two writes, the receive loop runs from an empty buffer over
    // the reads that follow the handshake reply.
    ensures InfoHash(c.session.torrent, ext.infoDigest).Ok? ==>
              r == ReadLoop(if chunks == [] then [] else chunks[1..], [],
                            c.(sent := c.sent + [Handshake(InfoHash(c.session.torrent, ext.infoDigest).value, ext.peerId),
                                                 InterestedMessage()]), ext)
  {
    match InfoHash(c.session.torrent, ext.infoDigest)
    case Fail(e) => Run(c, Raised(e))
    case Ok(infoHash) =>
      var c' := c.(sent := c.sent + [Handshake(infoHash, ext.peerId), InterestedMessage()]);
      var run := ReadLoop(if chunks == [] then [] else chunks[1..], [], c', ext);
      SentOnlyGrowsRead(if chunks == [] then [] else chunks[1..], [], c', ext);
      run
  }

  // ---------------------------------------------------------------------
  // Properties of the loops

  /** Messages once written stay written. */
  lemma {:induction false} SentOnlyGrowsSpin(c: Conn)
    ensures c.sent <= Spin(c).conn.sent
    decreases Max(0, MaxInflight - c.peer.inflight)
  {
    if c.peer.inflight <= 1 {
      match RequestAPiece(c)
      case SendFailed(c', e) =>
      case Sent(c') => SentOnlyGrowsSpin(c');
    }
  }

  lemma SentOnlyGrowsHandle(m: Message, c: Conn, ext: Externals)
    ensures c.sent <= Handle(m, c, ext).conn.sent
  {
  }

  lemma SentOnlyGrowsRequest(c: Conn)
    ensures c.sent <= RequestAPiece(c).conn.sent
  {
  }

  lemma {:induction false} SentOnlyGrowsDrain(buf: seq<byte>, c: Conn, ext: Externals)
    ensures c.sent <= Drain(buf, c, ext).conn.sent
    decreases |buf|
  {
    match NextFrame(buf)
    case Wait =>
    case Unknown(_) => SentOnlyGrowsSpin(c);
    case Frame(m, rest) =>
      if m == KeepAlive {
        SentOnlyGrowsDrain(rest, c, ext);
      } else {
        var h := Handle(m, c, ext);
        SentOnlyGrowsHandle(m, c, ext);
        if h.Continue? {
          var s := RequestAPiece(h.conn);
          SentOnlyGrowsRequest(h.conn);
          if s.Sent? {
            SentOnlyGrowsDrain(rest, s.conn, ext);
          }
        }
      }
  }

  lemma {:induction false} SentOnlyGrowsRead(chunks: seq<seq<byte>>, buf: seq<byte>, c: Conn, ext: Externals)
    ensures c.sent <= ReadLoop(chunks, buf, c, ext).conn.sent
    decreases |chunks|
  {
    if chunks != [] && buf + chunks[0] != [] {
      var run := Drain(buf + chunks[0], c, ext);
      SentOnlyGrowsDrain(buf + chunks[0], c, ext);
      if run.end.NeedMore? {
        SentOnlyGrowsRead(chunks[1..], run.end.buf, run.conn, ext);
      }
    }
  }

  /** The invariant a connection keeps: at most two requests in flight, and a
      session whose index sets are disjoint and inside the piece table. */
  predicate Sound(c: Conn)
  {
    c.peer.inflight <= MaxInflight && Valid(c.session)
  }

  /** Handling a message keeps the connection sound. */
  lemma HandlePreservesSound(m: Message, c: Conn, ext: Externals)
    requires Sound(c)
    ensures Sound(Handle(m, c, ext).conn)
  {
    if m.PieceData? {
      OnBlockReceivedPreservesValid(c.session, m.index, m.begin, m.block, ext.sha1);
    }
  }

  lemma {:induction false} SpinPreservesSound(c: Conn)
    requires Sound(c)
    ensures Sound(Spin(c).conn)
    decreases Max(0, MaxInflight - c.peer.inflight)
  {
    if c.peer.inflight <= 1 {
      match RequestAPiece(c)
      case SendFailed(c', e) =>
      case Sent(c') => SpinPreservesSound(c');
    }
  }

  /** Whatever bytes arrive, the receive loop never has more than two
      requests outstanding and never breaks the session's index-set invariant. */
  lemma {:induction false} DrainPreservesSound(buf: seq<byte>, c: Conn, ext: Externals)
    requires Sound(c)
    ensures Sound(Drain(buf, c, ext).conn)
    decreases |buf|
  {
    match NextFrame(buf)
    case Wait =>
    case Unknown(_) => SpinPreservesSound(c);
    case Frame(m, rest) =>
      if m == KeepAlive {
        DrainPreservesSound(rest, c, ext);
      } else {
        HandlePreservesSound(m, c, ext);
        match Handle(m, c, ext)
        case Return(c') =>
        case Raise(c', e) =>
        case Continue(c') =>
          match RequestAPiece(c')
          case SendFailed(c'', e) =>
          case Sent(c'') => DrainPreservesSound(rest, c'', ext);
      }
  }

  /** The same over a whole connection's chunks. */
  lemma {:induction false} ReadLoopPreservesSound(chunks: seq<seq<byte>>, buf: seq<byte>, c: Conn, ext: Externals)
    requires Sound(c)
    ensures Sound(ReadLoop(chunks, buf, c, ext).conn)
    decreases |chunks|
  {
    if chunks != [] && buf + chunks[0] != [] {
      var run := Drain(buf + chunks[0], c, ext);
      DrainPreservesSound(buf + chunks[0], c, ext);
      if run.end.NeedMore? {
        ReadLoopPreservesSound(chunks[1..], run.end.buf, run.conn, ext);
      }
    }
  }

  /** A buffer holding less than a frame is left untouched for the next read. */
  lemma DrainWaitsOnPartialFrame(buf: seq<byte>, c: Conn, ext: Externals)
    requires NextFrame(buf).Wait?
    ensures Drain(buf, c, ext) == Run(c, NeedMore(buf))
  {
  }

  /** A complete frame with an id the loop does not handle is never cut
      off the buffer: the loop only requests, and once two requests are in
      flight it spins on the same bytes for good. */
  lemma DrainSpinsOnUnknownId(buf: seq<byte>, c: Conn, ext: Externals)
    requires HoldsFrame(buf) && buf[4] !in {0, 1, 2, 3, 4, 5, 7}
    ensures Drain(buf, c, ext) == Spin(c)
    ensures c.peer.inflight > 1 ==> Drain(buf, c, ext) == Run(c, Hung)
  {
  }

  /** A keep-alive frame is dropped and the loop goes on with what follows,
      without requesting anything. */
  lemma DrainSkipsKeepAlive(rest: seq<byte>, c: Conn, ext: Externals)
    ensures Drain(Encode(KeepAlive) + rest, c, ext) == Drain(rest, c, ext)
  {
    FrameRoundTrip(KeepAlive, rest);
  }

  /** A complete frame at the front of the buffer is handled once, a request
      follows it, and the loop goes on with exactly the bytes after it. */
  lemma DrainConsumesOneFrame(m: Message, rest: seq<byte>, c: Conn, ext: Externals)
    requires Encodable(m) && m != KeepAlive
    requires Handle(m, c, ext).Continue?
    requires RequestAPiece(Handle(m, c, ext).conn).Sent?
    ensures Drain(Encode(m) + rest, c, ext) == Drain(rest, RequestAPiece(Handle(m, c, ext).conn).conn, ext)
  {
    FrameRoundTrip(m, rest);
  }

  /** A frame whose handling raises ends the peer with that exception; no
      request follows it. */
  lemma DrainStopsWhenHandlingStops(m: Message, rest: seq<byte>, c: Conn, ext: Externals)
    requires Encodable(m) && m != KeepAlive
    ensures Handle(m, c, ext).Raise? ==>
              Drain(Encode(m) + rest, c, ext) == Run(Handle(m, c, ext).conn, Raised(Handle(m, c, ext).error))
  {
    FrameRoundTrip(m, rest);
  }

  /** A piece frame that cannot be unpacked still counts as an answer, and
      the connection returns without a request. */
  lemma DrainReturnsOnBadPiece(buf: seq<byte>, c: Conn, ext: Externals)
    requires NextFrame(buf).Frame? && NextFrame(buf).msg == BadPiece
    ensures Drain(buf, c, ext) == Run(c.(peer := c.peer.(inflight := c.peer.inflight - 1)), Abandoned)
  {
  }

  /** A `have` changes nothing but is answered with a request, and the loop
      goes on 5 bytes past the frame's end. */
  lemma DrainAnswersHave(index: nat, rest: seq<byte>, c: Conn, ext: Externals)
    requires index < Two32
    ensures RequestAPiece(c).Sent? ==>
              Drain(EncodeHave(index) + rest, c, ext) == Drain(Drop(rest, 5), RequestAPiece(c).conn, ext)
    ensures RequestAPiece(c).SendFailed? ==>
              Drain(EncodeHave(index) + rest, c, ext) == Run(RequestAPiece(c).conn, Raised(RequestAPiece(c).error))
  {
    HaveSwallowsFiveBytes(index, rest);
  }

  /** A read holding exactly one whole frame is appended to the empty
      buffer, handled, answered with a request, and leaves the buffer empty
      for the next read. */
  lemma WholeFrameReadIsHandled(m: Message, more: seq<seq<byte>>, c: Conn, ext: Externals)
    requires Encodable(m) && m != KeepAlive
    requires Handle(m, c, ext).Continue? && RequestAPiece(Handle(m, c, ext).conn).Sent?
    ensures ReadLoop([Encode(m)] + more, [], c, ext) == ReadLoop(more, [], RequestAPiece(Handle(m, c, ext).conn).conn, ext)
  {
    var c2 := RequestAPiece(Handle(m, c, ext).conn).conn;
    assert Encode(m) + [] == Encode(m) && [] + Encode(m) == Encode(m);
    DrainConsumesOneFrame(m, [], c, ext);
    FrameRoundTrip(m, []);
    assert Drain([], c2, ext) == Run(c2, NeedMore([]));
    assert ([Encode(m)] + more)[0] == Encode(m) && ([Encode(m)] + more)[1..] == more;
  }

  /** Bytes are accumulated across reads: a read that leaves the buffer
      short of a frame changes nothing, so splitting the stream there gives
      the same run as one joined read. */
  lemma SplitAtWaitIsHarmless(a: seq<byte>, b: seq<byte>, more: seq<seq<byte>>, buf: seq<byte>, c: Conn, ext: Externals)
    requires buf + a != [] && NextFrame(buf + a).Wait?
    ensures ReadLoop([a, b] + more, buf, c, ext) == ReadLoop([a + b] + more, buf, c, ext)
  {
    DrainWaitsOnPartialFrame(buf + a, c, ext);
    assert ([a, b] + more)[0] == a && ([a, b] + more)[1..] == [b] + more;
    assert ([b] + more)[0] == b && ([b] + more)[1..] == more;
    assert ([a + b] + more)[0] == a + b && ([a + b] + more)[1..] == more;
    assert buf + a + b == buf + (a + b);
  }

  /** Pulling a block does not look at the choke state. */
  lemma {:induction false} NextRequestIgnoresChoking(c: Conn, unchoked: bool)
    ensures var r := NextRequest(c);
            var r' := NextRequest(c.(peer := c.peer.(unchoked := unchoked)));
            && r'.Pulled? == r.Pulled?
            && r'.conn == r.conn.(peer := r.conn.peer.(unchoked := unchoked))
            && (r.Pulled? ==> r'.req == r.req)
            && (r.PullFailed? ==> r'.error == r.error)
    decreases |FreeSet(c.session)|, |c.peer.cursor|
  {
    if c.peer.cursor == [] {
      match GetPieceRequest(c.session, c.peer.have)
      case Fail(_) =>
      case Ok(claim) =>
        ClaimShrinksFreeSet(c.session, c.peer.have);
        var blocks := Requests(claim.session.pieces[claim.index].blocks);
        var next := c.(session := claim.session, peer := c.peer.(cursor := blocks));
        NextRequestIgnoresChoking(next, unchoked);
        assert next.(peer := next.peer.(unchoked := unchoked))
            == c.(peer := c.peer.(unchoked := unchoked)).(session := claim.session, peer := c.peer.(unchoked := unchoked).(cursor := blocks));
    }
  }

  /** Requests go out whether or not the peer has unchoked: the request
      written, the state after it and any error are the same either way. */
  lemma RequestIgnoresChoking(c: Conn, unchoked: bool)
    ensures var r := RequestAPiece(c);
            var r' := RequestAPiece(c.(peer := c.peer.(unchoked := unchoked)));
            && r'.Sent? == r.Sent?
            && r'.conn == r.conn.(peer := r.conn.peer.(unchoked := unchoked))
            && (r.SendFailed? ==> r'.error == r.error)
  {
    NextRequestIgnoresChoking(c, unchoked);
  }

  /** A peer with nothing left to offer is not idled: once the cursor is
      empty and no piece is eligible, the next request raises, and the
      receive loop ends the peer with it. */
  lemma NoEligiblePieceIsFatal(m: Message, rest: seq<byte>, c: Conn, ext: Externals)
    requires Encodable(m) && m != KeepAlive
    requires Handle(m, c, ext).Continue?
    requires Handle(m, c, ext).conn.peer.inflight <= 1 && Handle(m, c, ext).conn.peer.cursor == []
    requires GetPieceRequest(Handle(m, c, ext).conn.session, Handle(m, c, ext).conn.peer.have) == Fail(NoEligiblePiece)
    ensures Drain(Encode(m) + rest, c, ext).end == Raised(NoEligiblePiece)
  {
    FrameRoundTrip(m, rest);
    var h := Handle(m, c, ext).conn;
    assert RequestAPiece(h) == SendFailed(h, NoEligiblePiece) by {
      NothingEligibleFailsRequest(h);
    }
  }

  /** With the cursor empty and no piece eligible, `request_a_piece` raises
      and changes nothing. */
  lemma NothingEligibleFailsRequest(c: Conn)
    requires c.peer.inflight <= 1 && c.peer.cursor == []
    requires GetPieceRequest(c.session, c.peer.have) == Fail(NoEligiblePiece)
    ensures RequestAPiece(c) == SendFailed(c, NoEligiblePiece)
  {
  }

  // ---------------------------------------------------------------------
  // Reconnection

  /** What one connection attempt meets: a connect timeout, a refused
      connection, or a connection whose chunks are given. */
  datatype Attempt = TimedOut | Refused | Connected(chunks: seq<seq<byte>>)

  /** Whether a run ends the peer for good rather than returning to the retry loop. */
  predicate Fatal(e: End)
  {
    e.Raised? || e.Hung?
  }

  /** `download`: up to five connection attempts, the peer and session state
      carried from one to the next. Timeouts, refusals and connections that
      return lead to the next attempt; an exception or a hang ends the peer.
      Attempts past the end of `attempts` are refused connections. */
  method Download(c: Conn, ext: Externals, attempts: seq<Attempt>) returns (final: Conn, tried: nat, stop: Option<End>)
    ensures 1 <= tried <= MaxAttempts
    ensures stop.Some? ==> Fatal(stop.value)
    ensures stop.None? ==> tried == MaxAttempts
    ensures stop.Some? ==> tried <= |attempts| && attempts[tried - 1].Connected?
    ensures Sound(c) ==> Sound(final)
    ensures c.sent <= final.sent
  {
    final := c;
    tried := 0;
    stop := None;
    while tried < MaxAttempts
      invariant 0 <= tried <= MaxAttempts
      invariant Sound(c) ==> Sound(final)
      invariant c.sent <= final.sent
      invariant tried == 0 ==> final == c
      decreases MaxAttempts - tried
    {
      tried := tried + 1;
      var attempt := if tried - 1 < |attempts| then attempts[tried - 1] else Refused;
      match attempt {
        case TimedOut =>
        case Refused =>
        case Connected(chunks) =>
          var run := Connection(final, ext, chunks);
          ConnectionPreservesSound(final, ext, chunks);
          final := run.conn;
          if Fatal(run.end) {
            stop := Some(run.end);
            return;
          }
      }
    }
  }

  /** A whole connection keeps the connection sound. */
  lemma ConnectionPreservesSound(c: Conn, ext: Externals, chunks: seq<seq<byte>>)
    ensures Sound(c) ==> Sound(Connection(c, ext, chunks).conn)
    ensures c.sent <= Connection(c, ext, chunks).conn.sent
  {
    if InfoHash(c.session.torrent, ext.infoDigest).Ok? {
      var c' := c.(sent := c.sent + [Handshake(InfoHash(c.session.torrent, ext.infoDigest).value, ext.peerId), InterestedMessage()]);
      var rs := if chunks == [] then [] else chunks[1..];
      if Sound(c) {
        ReadLoopPreservesSound(rs, [], c', ext);
      }
      SentOnlyGrowsRead(rs, [], c', ext);
    }
  }
}

=== FILE: pieces.dfy ===
/** Pieces and blocks: the addressable units of the download, their
    completion state, and the block layout derived from the piece size. */
module Pieces {
  import opened Common

  /** Bytes asked for in one request message (16 KiB). */
  const RequestSize: nat := 0x4000

  /** One block of a piece: its byte range, the data received for it (None
      until received or after a flush) and the piece's "downloaded" flag for
      it. The source keeps these flags in a list on the piece; flag `j` is
      held here on block `j`. */
  datatype Block = Block(piece: int, begin: int, length: int, data: Option<seq<byte>>, downloaded: bool)

  /** A piece is its ordered list of blocks. Its index is its position in
      the session's piece table. */
  datatype Piece = Piece(blocks: seq<Block>)

  /** Two blocks that describe the same byte range. */
  predicate SameRange(a: Block, b: Block)
  {
    a.piece == b.piece && a.begin == b.begin && a.length == b.length
  }

  /** `save_block(begin, data)` over a block list: every block starting at
      `begin` takes the data and is flagged downloaded. */
  function SaveBlocks(bs: seq<Block>, begin: int, data: seq<byte>): (r: seq<Block>)
    ensures |r| == |bs|
    ensures forall j :: 0 <= j < |bs| ==> SameRange(r[j], bs[j])
    ensures forall j :: 0 <= j < |bs| && bs[j].begin == begin ==>
              r[j].data == Some(data) && r[j].downloaded
    ensures forall j :: 0 <= j < |bs| && bs[j].begin != begin ==> r[j] == bs[j]
  {
    if bs == [] then []
    else
      var b := bs[0];
      var b' := if b.begin == begin then b.(data := Some(data), downloaded := true) else b;
      [b'] + SaveBlocks(bs[1..], begin, data)
  }

  function SaveBlock(p: Piece, begin: int, data: seq<byte>): (r: Piece)
    ensures |r.blocks| == |p.blocks|
  {
    Piece(SaveBlocks(p.blocks, begin, data))
  }

  /** `is_complete`: every downloaded flag is set. */
  predicate IsComplete(p: Piece)
  {
    forall j :: 0 <= j < |p.blocks| ==> p.blocks[j].downloaded
  }

  /** A piece becomes complete by a save exactly when every block that was
      not yet downloaded starts at the saved offset. */
  lemma SaveBlockCompletes(p: Piece, begin: int, data: seq<byte>)
    ensures IsComplete(SaveBlock(p, begin, data)) <==>
              forall j :: 0 <= j < |p.blocks| ==> p.blocks[j].downloaded || p.blocks[j].begin == begin
  {
    var r := SaveBlock(p, begin, data);
    if IsComplete(r) {
      forall j | 0 <= j < |p.blocks|
        ensures p.blocks[j].downloaded || p.blocks[j].begin == begin
      {
        assert r.blocks[j].downloaded;
      }
    }
  }

  /** Total length of the data held by a block list whose data are all present. */
  function DataLength(bs: seq<Block>): nat
    requires forall j :: 0 <= j < |bs| ==> bs[j].data.Some?
  {
    if bs == [] then 0 else |bs[0].data.value| + DataLength(bs[1..])
  }

  /** `b''.join(block.data for block in blocks)`; None where Python raises
      TypeError because some block holds no data. */
  function Concat(bs: seq<Block>): (r: Option<seq<byte>>)
    ensures r.Some? <==> forall j :: 0 <= j < |bs| ==> bs[j].data.Some?
    ensures r.Some? ==> |r.value| == DataLength(bs)
  {
    if bs == [] then Some([])
    else match bs[0].data
      case None => None
      case Some(d) =>
        match Concat(bs[1..])
        case None => None
        case Some(rest) => Some(d + rest)
  }

  /** `Piece.data`: the piece's content. */
  function Content(p: Piece): Option<seq<byte>>
  {
    Concat(p.blocks)
  }

  /** Sum of the declared lengths of a block list. */
  function RangeLength(bs: seq<Block>): int
  {
    if bs == [] then 0 else bs[0].length + RangeLength(bs[1..])
  }

  /** The blocks lie end to end from offset `from`, and each holds data of
      its declared length. */
  predicate TilesFrom(bs: seq<Block>, from: int)
  {
    bs != [] ==>
      && bs[0].begin == from
      && bs[0].data.Some?
      && |bs[0].data.value| == bs[0].length
      && TilesFrom(bs[1..], from + bs[0].length)
  }

  /** When the blocks tile a range with data of the declared lengths, the
      content exists and is exactly as long as the range. */
  lemma {:induction false} TiledContentLength(bs: seq<Block>, from: int)
    requires TilesFrom(bs, from)
    ensures Concat(bs).Some? && |Concat(bs).value| == RangeLength(bs)
    decreases |bs|
  {
    if bs != [] {
      TiledContentLength(bs[1..], from + bs[0].length);
    }
  }

  /** Block `b`'s data sits at offset `off` of `content`. */
  predicate DataAt(content: seq<byte>, off: int, b: Block)
  {
    && b.data.Some?
    && 0 <= off <= off + b.length <= |content|
    && content[off .. off + b.length] == b.data.value
  }

  /** When the blocks tile a range, block `j`'s data sits at the block's
      offset within the content: no gaps and no overlaps. */
  lemma {:induction false} TiledContentAt(bs: seq<Block>, from: int, j: nat)
    requires TilesFrom(bs, from) && j < |bs|
    ensures Concat(bs).Some? && DataAt(Concat(bs).value, bs[j].begin - from, bs[j])
    decreases j
  {
    var d, ct := TiledFirst(bs, from);
    if j == 0 {
      assert (d + ct)[0..|d|] == d;
    } else {
      var b := bs[1..][j - 1];
      TiledContentAt(bs[1..], from + |d|, j - 1);
      assert b == bs[j];
      DataAfterPrefix(d, ct, b.begin - (from + |d|), b, b.begin - from);
    }
  }

  /** A tiling splits into its first block's data and the content of the
      rest, which tiles on from the end of the first block. */
  lemma TiledFirst(bs: seq<Block>, from: int) returns (d: seq<byte>, ct: seq<byte>)
    requires TilesFrom(bs, from) && bs != []
    ensures bs[0].begin == from && bs[0].data == Some(d) && |d| == bs[0].length
    ensures TilesFrom(bs[1..], from + |d|)
    ensures Concat(bs[1..]) == Some(ct) && |ct| == RangeLength(bs[1..])
    ensures Concat(bs) == Some(d + ct)
  {
    d := bs[0].data.value;
    TiledContentLength(bs[1..], from + |d|);
    ct := Concat(bs[1..]).value;
  }

  /** Data at an offset of `c` sits `|d|` further on in `d + c`. */
  lemma DataAfterPrefix(d: seq<byte>, c: seq<byte>, off: int, b: Block, shifted: int)
    requires DataAt(c, off, b) && shifted == |d| + off
    ensures DataAt(d + c, shifted, b)
  {
    assert (d + c)[shifted .. shifted + b.length] == c[off .. off + b.length];
  }

  /** Whatever the blocks' ranges, the join keeps their order: block `j`'s
      data starts right after the data of the blocks before it. */
  lemma {:induction false} ConcatPlacesBlock(bs: seq<Block>, j: nat)
    requires forall k :: 0 <= k < |bs| ==> bs[k].data.Some?
    requires j < |bs|
    ensures Concat(bs).Some?
    ensures DataLength(bs[..j]) + |bs[j].data.value| <= |Concat(bs).value|
    ensures Concat(bs).value[DataLength(bs[..j]) .. DataLength(bs[..j]) + |bs[j].data.value|] == bs[j].data.value
    decreases j
  {
    var d := bs[0].data.value;
    var ct := Concat(bs[1..]).value;
    assert Concat(bs).value == d + ct;
    if j == 0 {
      assert bs[..0] == [];
      assert (d + ct)[0 .. |d|] == d;
    } else {
      ConcatPlacesBlock(bs[1..], j - 1);
      assert bs[..j][1..] == bs[1..][..j - 1];
      assert DataLength(bs[..j]) == |d| + DataLength(bs[1..][..j - 1]);
      assert bs[1..][j - 1] == bs[j];
      ShiftSlice(d, ct, DataLength(bs[1..][..j - 1]), bs[j].data.value);
    }
  }

  /** Bytes found at `off` in `c` are found `|d|` further on in `d + c`. */
  lemma ShiftSlice(d: seq<byte>, c: seq<byte>, off: nat, v: seq<byte>)
    requires off + |v| <= |c| && c[off .. off + |v|] == v
    ensures |d| + off + |v| <= |d + c| && (d + c)[|d| + off .. |d| + off + |v|] == v
  {
    assert (d + c)[|d| + off .. |d| + off + |v|] == c[off .. off + |v|];
  }

  /** `flush`: every block forgets its data; the downloaded flags stay. */
  function Flush(p: Piece): (r: Piece)
    ensures |r.blocks| == |p.blocks|
    ensures forall j :: 0 <= j < |p.blocks| ==>
              SameRange(r.blocks[j], p.blocks[j]) && r.blocks[j].data.None? &&
              r.blocks[j].downloaded == p.blocks[j].downloaded
  {
    Piece(seq(|p.blocks|, j requires 0 <= j < |p.blocks| => p.blocks[j].(data := None)))
  }

  /** A flush keeps completion but leaves nothing to assemble: a flushed
      piece with blocks has no content, and its completion is unchanged. */
  lemma FlushKeepsFlags(p: Piece)
    ensures IsComplete(Flush(p)) <==> IsComplete(p)
    ensures |p.blocks| > 0 ==> Content(Flush(p)).None?
  {
    if |p.blocks| > 0 {
      assert Flush(p).blocks[0].data.None?;
    }
  }

  // ---------------------------------------------------------------------
  // Layout arithmetic of `get_pieces`

  /** `math.ceil(a / b)` on integers, with floor semantics for either sign of `b`. */
  function CeilDiv(a: int, b: int): (q: int)
    requires b != 0
    ensures b > 0 ==> (q - 1) * b < a <= q * b
    ensures b < 0 ==> q * b <= a < (q - 1) * b
  {
    if b > 0 then -((-a) / b) else -(a / (-b))
  }

  /** The number of pieces: the total size divided by the piece size, rounded up. */
  function NumberOfPieces(size: int, pieceSize: int): int
    requires pieceSize != 0
  {
    CeilDiv(size, pieceSize)
  }

  /** Blocks per piece: the piece size divided by 16 KiB, rounded up. */
  function BlocksPerPiece(pieceSize: int): int
  {
    CeilDiv(pieceSize, RequestSize)
  }

  /** `(piece_size % REQUEST_SIZE) or REQUEST_SIZE`. */
  function LastBlockLength(pieceSize: int): int
  {
    if pieceSize % RequestSize != 0 then pieceSize % RequestSize else RequestSize
  }

  /** Length of block `j`: the last block takes the remainder, all others 16 KiB. */
  function BlockLength(pieceSize: int, j: int): int
  {
    if j == BlocksPerPiece(pieceSize) - 1 then LastBlockLength(pieceSize) else RequestSize
  }

  /** The blocks of piece `i`: block `j` starts at `block_length * j`. */
  function PieceBlocks(i: int, pieceSize: int): seq<Block>
  {
    seq(Max(0, BlocksPerPiece(pieceSize)), j =>
      Block(i, BlockLength(pieceSize, j) * j, BlockLength(pieceSize, j), None, false))
  }

  /** `get_pieces`: the piece table, every piece laid out from the same piece size. */
  function Layout(numberOfPieces: int, pieceSize: int): seq<Piece>
  {
    seq(Max(0, numberOfPieces), i => Piece(PieceBlocks(i, pieceSize)))
  }

  /** The piece table has ceil(size / piece size) pieces, each new piece is
      empty and incomplete, and each has ceil(piece size / 16 KiB) blocks
      tagged with its own index — the final piece included, which is never
      shortened to the remaining size. */
  lemma LayoutShape(size: int, pieceSize: int)
    requires pieceSize > 0
    ensures var n := NumberOfPieces(size, pieceSize);
            var ps := Layout(n, pieceSize);
            && (size > 0 ==> |ps| == n && (n - 1) * pieceSize < size <= n * pieceSize)
            && (size <= 0 ==> ps == [])
            && forall i :: 0 <= i < |ps| ==>
                 && |ps[i].blocks| == BlocksPerPiece(pieceSize)
                 && (BlocksPerPiece(pieceSize) - 1) * RequestSize < pieceSize <= BlocksPerPiece(pieceSize) * RequestSize
                 && Content(ps[i]).None?
                 && !IsComplete(ps[i])
                 && forall j :: 0 <= j < |ps[i].blocks| ==> ps[i].blocks[j].piece == i
  {
    var n := NumberOfPieces(size, pieceSize);
    var ps := Layout(n, pieceSize);
    var bpp := BlocksPerPiece(pieceSize);
    LayoutCount(size, pieceSize);
    forall i | 0 <= i < |ps|
      ensures |ps[i].blocks| == bpp && Content(ps[i]).None? && !IsComplete(ps[i])
      ensures forall j :: 0 <= j < |ps[i].blocks| ==> ps[i].blocks[j].piece == i
    {
      PieceShape(i, pieceSize);
    }
  }

  /** The piece count bounds the total size, and the table has that many
      pieces when the size is positive and none otherwise. */
  lemma LayoutCount(size: int, pieceSize: int)
    requires pieceSize > 0
    ensures var n := NumberOfPieces(size, pieceSize);
            && (size > 0 ==> n > 0 && |Layout(n, pieceSize)| == n && (n - 1) * pieceSize < size <= n * pieceSize)
            && (size <= 0 ==> n <= 0 && Layout(n, pieceSize) == [])
  {
    var n := NumberOfPieces(size, pieceSize);
    if size > 0 {
      assert n * pieceSize >= size > 0;
      PositiveFactor(n, pieceSize);
    } else {
      assert (n - 1) * pieceSize < size <= 0;
      PositiveFactor(n - 1, pieceSize);
    }
  }

  /** A product with a positive factor has the sign of the other factor. */
  lemma PositiveFactor(a: int, b: int)
    requires b > 0
    ensures a > 0 <==> a * b > 0
    ensures a < 0 <==> a * b < 0
  {
    if a > 0 {
      MulLess(0, a, b);
    } else if a < 0 {
      MulLess(a, 0, b);
    }
  }

  /** A freshly laid out piece has ceil(piece size / 16 KiB) blocks, all
      tagged with its index, none holding data or flagged downloaded. */
  lemma PieceShape(i: int, pieceSize: int)
    requires pieceSize > 0
    ensures var bs := PieceBlocks(i, pieceSize);
            && |bs| == BlocksPerPiece(pieceSize) > 0
            && Content(Piece(bs)).None?
            && !IsComplete(Piece(bs))
            && forall j :: 0 <= j < |bs| ==> bs[j].piece == i && bs[j].data.None? && !bs[j].downloaded
  {
    var bs := PieceBlocks(i, pieceSize);
    assert bs[0].data.None? && !bs[0].downloaded;
  }

  /** Every block but the last is 16 KiB, the last holds the remainder (or
      16 KiB when there is none), and together their lengths add up to the
      piece size. */
  lemma BlockLengthsSumToPieceSize(i: int, pieceSize: int)
    requires pieceSize > 0
    ensures var bs := PieceBlocks(i, pieceSize);
            && |bs| > 0
            && (forall j :: 0 <= j < |bs| - 1 ==> bs[j].length == RequestSize)
            && bs[|bs| - 1].length == LastBlockLength(pieceSize)
            && 0 < bs[|bs| - 1].length <= RequestSize
            && RangeLength(bs) == pieceSize
  {
    var bs := PieceBlocks(i, pieceSize);
    var n := |bs|;
    SuffixLength(i, pieceSize, 0);
    var r := pieceSize % RequestSize;
    assert pieceSize == (pieceSize / RequestSize) * RequestSize + r;
    if r != 0 {
      assert n - 1 == pieceSize / RequestSize;
    } else {
      assert n == pieceSize / RequestSize;
    }
  }

  /** The blocks from `k` on span 16 KiB for each non-last block plus the last block's length. */
  lemma {:induction false} SuffixLength(i: int, pieceSize: int, k: nat)
    requires pieceSize > 0
    requires k <= |PieceBlocks(i, pieceSize)|
    ensures var bs := PieceBlocks(i, pieceSize);
            RangeLength(bs[k..]) ==
              if k == |bs| then 0 else (|bs| - 1 - k) * RequestSize + LastBlockLength(pieceSize)
    decreases |PieceBlocks(i, pieceSize)| - k
  {
    var bs := PieceBlocks(i, pieceSize);
    if k < |bs| {
      assert bs[k..][1..] == bs[k + 1..];
      SuffixLength(i, pieceSize, k + 1);
    }
  }

  /** With a piece size that is a multiple of 16 KiB, the blocks from `k` on
      start at `k * 16 KiB` and are 16 KiB each; filled with data of those
      lengths they tile the rest of the piece. */
  lemma {:induction false} AlignedSuffixTiles(p: Piece, i: int, pieceSize: int, k: nat)
    requires pieceSize > 0 && pieceSize % RequestSize == 0
    requires |p.blocks| == |PieceBlocks(i, pieceSize)|
    requires forall j :: 0 <= j < |p.blocks| ==> SameRange(p.blocks[j], PieceBlocks(i, pieceSize)[j])
    requires forall j :: 0 <= j < |p.blocks| ==>
               p.blocks[j].data.Some? && |p.blocks[j].data.value| == p.blocks[j].length
    requires k <= |p.blocks|
    ensures TilesFrom(p.blocks[k..], k * RequestSize)
    decreases |p.blocks| - k
  {
    if k < |p.blocks| {
      assert p.blocks[k..][1..] == p.blocks[k + 1..];
      assert p.blocks[k].length == RequestSize;
      AlignedSuffixTiles(p, i, pieceSize, k + 1);
    }
  }

  /** When the piece size is a multiple of 16 KiB the blocks, once filled
      with data of their declared lengths, tile the piece end to end from
      offset 0: block `j` starts at `j * 16 KiB`, its data sits there in the
      content, and the content is exactly the piece size long. */
  lemma AlignedBlocksTile(p: Piece, i: int, pieceSize: int)
    requires pieceSize > 0 && pieceSize % RequestSize == 0
    requires |p.blocks| == |PieceBlocks(i, pieceSize)|
    requires forall j :: 0 <= j < |p.blocks| ==> SameRange(p.blocks[j], PieceBlocks(i, pieceSize)[j])
    requires forall j :: 0 <= j < |p.blocks| ==>
               p.blocks[j].data.Some? && |p.blocks[j].data.value| == p.blocks[j].length
    ensures Content(p).Some? && |Content(p).value| == pieceSize
    ensures forall j :: 0 <= j < |p.blocks| ==>
              p.blocks[j].begin == j * RequestSize &&
              Content(p).value[j * RequestSize .. j * RequestSize + RequestSize] == p.blocks[j].data.value
  {
    AlignedSuffixTiles(p, i, pieceSize, 0);
    assert p.blocks[0..] == p.blocks;
    AlignedContentLength(p, i, pieceSize);
    forall j | 0 <= j < |p.blocks|
      ensures p.blocks[j].begin == j * RequestSize
      ensures Content(p).value[j * RequestSize .. j * RequestSize + RequestSize] == p.blocks[j].data.value
    {
      AlignedBlockAt(p, i, pieceSize, j);
    }
  }

  /** Filled blocks that tile from 0 and describe a layout assemble into
      exactly piece-size bytes. */
  lemma AlignedContentLength(p: Piece, i: int, pieceSize: int)
    requires pieceSize > 0
    requires TilesFrom(p.blocks, 0)
    requires |p.blocks| == |PieceBlocks(i, pieceSize)|
    requires forall j :: 0 <= j < |p.blocks| ==> SameRange(p.blocks[j], PieceBlocks(i, pieceSize)[j])
    ensures Content(p).Some? && |Content(p).value| == pieceSize
  {
    TiledContentLength(p.blocks, 0);
    BlockLengthsSumToPieceSize(i, pieceSize);
    SameLengths(p.blocks, PieceBlocks(i, pieceSize));
  }

  /** In an aligned layout block `j` is 16 KiB long and starts at `j * 16 KiB`. */
  lemma AlignedBlockGeometry(i: int, pieceSize: int, j: nat)
    requires pieceSize > 0 && pieceSize % RequestSize == 0
    requires j < |PieceBlocks(i, pieceSize)|
    ensures PieceBlocks(i, pieceSize)[j].begin == j * RequestSize
    ensures PieceBlocks(i, pieceSize)[j].length == RequestSize
  {
  }

  /** One block of a filled aligned tiling sits at `j * 16 KiB` in the content. */
  lemma AlignedBlockAt(p: Piece, i: int, pieceSize: int, j: nat)
    requires pieceSize > 0 && pieceSize % RequestSize == 0
    requires TilesFrom(p.blocks, 0)
    requires |p.blocks| == |PieceBlocks(i, pieceSize)| && j < |p.blocks|
    requires SameRange(p.blocks[j], PieceBlocks(i, pieceSize)[j])
    ensures p.blocks[j].begin == j * RequestSize && p.blocks[j].length == RequestSize
    ensures Content(p).Some? && j * RequestSize + RequestSize <= |Content(p).value|
    ensures Content(p).value[j * RequestSize .. j * RequestSize + RequestSize] == p.blocks[j].data.value
  {
    var b := p.blocks[j];
    assert b.begin == j * RequestSize && b.length == RequestSize by {
      AlignedBlockGeometry(i, pieceSize, j);
    }
    TiledContentAt(p.blocks, 0, j);
  }

  /** Block lists describing the same ranges have the same total length. */
  lemma {:induction false} SameLengths(a: seq<Block>, b: seq<Block>)
    requires |a| == |b|
    requires forall j :: 0 <= j < |a| ==> SameRange(a[j], b[j])
    ensures RangeLength(a) == RangeLength(b)
  {
    if a != [] {
      SameLengths(a[1..], b[1..]);
    }
  }

  /** When the piece size is not a multiple of 16 KiB and there are at least
      two blocks, the last block is misplaced: it starts at
      `remainder * (count - 1)` rather than at the end of the block before
      it, so it overlaps that block and the piece's tail is never requested. */
  lemma LastBlockMisplaced(i: int, pieceSize: int)
    requires pieceSize > RequestSize && pieceSize % RequestSize != 0
    ensures var bs := PieceBlocks(i, pieceSize);
            var last := bs[|bs| - 1];
            && |bs| >= 2
            && last.begin < bs[|bs| - 2].begin + bs[|bs| - 2].length
            && last.begin + last.length < pieceSize
  {
    var bs := PieceBlocks(i, pieceSize);
    var n := |bs|;
    var r := pieceSize % RequestSize;
    var q := pieceSize / RequestSize;
    assert pieceSize == q * RequestSize + r;
    assert n - 1 == q;
    assert q >= 1;
    assert bs[n - 1].begin == r * q;
    assert bs[n - 2].begin == RequestSize * (q - 1);
    MulLess(r, RequestSize, q);
  }

  lemma MulLess(a: int, b: int, c: int)
    requires a < b && c > 0
    ensures a * c < b * c
  {
  }

  /** The concrete layouts of a 32 KiB piece and of a 40000-byte manifest
      with 32 KiB pieces: two pieces of two 16 KiB blocks each (the second
      piece is not cut down to its 7232 bytes), and a 40000-byte piece whose
      last block of 7232 bytes starts at 14464, inside the second block. */
  lemma LayoutExamples()
    ensures BlocksPerPiece(32768) == 2
    ensures PieceBlocks(0, 32768) == [Block(0, 0, 16384, None, false), Block(0, 16384, 16384, None, false)]
    ensures NumberOfPieces(40000, 32768) == 2
    ensures Layout(2, 32768)[1] == Piece([Block(1, 0, 16384, None, false), Block(1, 16384, 16384, None, false)])
    ensures PieceBlocks(0, 40000)[2] == Block(0, 14464, 7232, None, false)
  {
  }
}

=== FILE: session.dfy ===
/** The download session: the piece table shared by all peer connections,
    the two index sets (claimed and verified pieces), piece selection, and
    block completion with hash verification feeding the output queue. */
module DownloadSession {
  import opened Common
  import opened Manifest
  import opened Pieces

  /** One item of the output queue: a verified piece's absolute offset and bytes. */
  datatype Write = Write(offset: int, data: seq<byte>)

  /** The session state. `inProgress` and `received` stand for the source's
      `pieces_in_progress` and `received_pieces` dictionaries, whose values
      are always `pieces[index]`; `queue` is everything put on the output queue. */
  datatype Session = Session(
    torrent: Torrent,
    pieceSize: int,
    numberOfPieces: int,
    pieces: seq<Piece>,
    inProgress: set<nat>,
    received: set<nat>,
    queue: seq<Write>)

  /** The outcome of a session operation that may raise after it has already
      changed the state: the state at that point and the exception, if any. */
  datatype Step = Step(session: Session, error: Option<Error>)

  /** The shape every reachable session keeps: the two index sets are
      disjoint and only name pieces of the table. */
  predicate Valid(s: Session)
  {
    && s.inProgress !! s.received
    && (forall i :: i in s.inProgress ==> i < |s.pieces|)
    && (forall i :: i in s.received ==> i < |s.pieces|)
  }

  /** The manifest's info dictionary has a `piece length` entry. */
  predicate HasPieceLength(t: Torrent)
  {
    "info" in t.meta && t.meta["info"].BDict? && "piece length" in t.meta["info"].entries
  }

  /** `DownloadSession(torrent)`: reads the piece length and the total size
      and lays out the piece table. */
  function NewSession(t: Torrent): (r: Result<Session>)
    ensures GetItem(t, "info").None? ==> r == Fail(TypeMismatch)
    ensures r.Ok? ==>
              && HasPieceLength(t)
              && t.meta["info"].entries["piece length"] == BInt(r.value.pieceSize)
              && r.value.pieceSize != 0
              && Size(t).Ok?
              && r.value.numberOfPieces == NumberOfPieces(Size(t).value, r.value.pieceSize)
              && r.value.pieces == Layout(r.value.numberOfPieces, r.value.pieceSize)
              && r.value.inProgress == {} && r.value.received == {} && r.value.queue == []
              && r.value.torrent == t
              && Valid(r.value)
    ensures GetItem(t, "info").Some? && !t.meta["info"].BDict? ==> r == Fail(TypeMismatch)
    ensures GetItem(t, "info").Some? && t.meta["info"].BDict? && !HasPieceLength(t) ==> r == Fail(KeyMissing)
    ensures HasPieceLength(t) && Size(t).Fail? ==> r == Fail(Size(t).error)
    ensures HasPieceLength(t) && Size(t).Ok? && !t.meta["info"].entries["piece length"].BInt? ==> r == Fail(TypeMismatch)
    ensures HasPieceLength(t) && Size(t).Ok? && t.meta["info"].entries["piece length"] == BInt(0) ==>
              r == Fail(ZeroDivision)
  {
    match GetItem(t, "info")
    case None => Fail(TypeMismatch)
    case Some(info) =>
      if !info.BDict? then Fail(TypeMismatch)
      else if "piece length" !in info.entries then Fail(KeyMissing)
      else
        var size :- Size(t);
        match info.entries["piece length"]
        case BInt(ps) =>
          if ps == 0 then Fail(ZeroDivision)
          else
            var n := NumberOfPieces(size, ps);
            Ok(Session(t, ps, n, Layout(n, ps), {}, {}, []))
        case _ => Fail(TypeMismatch)
  }

  /** Piece `i` is neither verified nor claimed. */
  predicate Free(s: Session, i: nat)
  {
    i !in s.received && i !in s.inProgress
  }

  /** Piece `i` may be handed to a peer whose bitfield is `have`. */
  predicate Eligible(s: Session, have: seq<bool>, i: nat)
  {
    i < |s.pieces| && Free(s, i) && i < |have| && have[i]
  }

  /** Every free piece in [lo, hi) is one the peer's bitfield covers but does not have. */
  predicate PassedOver(s: Session, have: seq<bool>, lo: nat, hi: nat)
  {
    forall j :: lo <= j < hi && Free(s, j) ==> j < |have| && !have[j]
  }

  /** What the scan from index `i` promises of its result `r`: a piece it
      returns is eligible and every free piece before it (from `i` on) was
      passed over; it reports no eligible piece exactly when every free piece
      from `i` on is passed over; and IndexError means it met a free piece past
      the end of the bitfield with every free piece before it passed over. */
  ghost predicate ScanSpec(s: Session, have: seq<bool>, i: nat, r: Result<nat>)
  {
    && (r.Ok? ==> i <= r.value && Eligible(s, have, r.value) && PassedOver(s, have, i, r.value))
    && (r == Fail(NoEligiblePiece) <==> PassedOver(s, have, i, |s.pieces|))
    && (r.Fail? ==> r.error == NoEligiblePiece || r.error == IndexOutOfRange)
    && (r == Fail(IndexOutOfRange) ==>
          exists j: nat :: i <= j < |s.pieces| && Free(s, j) && j >= |have| && PassedOver(s, have, i, j))
  }

  /** The ascending scan of `get_piece_request` from index `i`. Reading a
      bitfield bit past its end raises IndexError. */
  function Scan(s: Session, have: seq<bool>, i: nat): (r: Result<nat>)
    ensures ScanSpec(s, have, i, r)
    decreases |s.pieces| - i
  {
    if i >= |s.pieces| then Fail(NoEligiblePiece)
    else if !Free(s, i) || (i < |have| && !have[i]) then
      var r := Scan(s, have, i + 1);
      ScanPassesOver(s, have, i, r);
      r
    else if i >= |have| then
      assert !PassedOver(s, have, i, |s.pieces|) by {
        assert Free(s, i) && i >= |have|;
      }
      assert PassedOver(s, have, i, i);
      Fail(IndexOutOfRange)
    else
      assert !PassedOver(s, have, i, |s.pieces|) by {
        assert Free(s, i) && have[i];
      }
      Ok(i)
  }

  /** A piece the scan passes over does not change what the scan from the
      next index promises. */
  lemma ScanPassesOver(s: Session, have: seq<bool>, i: nat, r: Result<nat>)
    requires i < |s.pieces| && (!Free(s, i) || (i < |have| && !have[i]))
    requires ScanSpec(s, have, i + 1, r)
    ensures ScanSpec(s, have, i, r)
  {
    PassedOverCons(s, have, i, |s.pieces|);
    if r.Ok? {
      PassedOverCons(s, have, i, r.value);
    }
    if r == Fail(IndexOutOfRange) {
      var j: nat :| i + 1 <= j < |s.pieces| && Free(s, j) && j >= |have| && PassedOver(s, have, i + 1, j);
      PassedOverCons(s, have, i, j);
    }
  }

  /** Passing over [i, hi) is passing over `i` and then [i + 1, hi). */
  lemma PassedOverCons(s: Session, have: seq<bool>, i: nat, hi: nat)
    requires i < hi
    requires !Free(s, i) || (i < |have| && !have[i])
    ensures PassedOver(s, have, i, hi) <==> PassedOver(s, have, i + 1, hi)
  {
  }

  /** A claimed piece: the session after the claim, and the piece's index. */
  datatype Claim = Claim(session: Session, index: nat)

  /** `get_piece_request(have_pieces)`: claims the lowest-index piece that is
      free and in the peer's bitfield. */
  function GetPieceRequest(s: Session, have: seq<bool>): (r: Result<Claim>)
    ensures r.Ok? ==>
              && Eligible(s, have, r.value.index)
              && PassedOver(s, have, 0, r.value.index)
              && r.value.session == s.(inProgress := s.inProgress + {r.value.index})
    ensures r == Fail(NoEligiblePiece) <==> PassedOver(s, have, 0, |s.pieces|)
    ensures r.Fail? ==> r.error == NoEligiblePiece || r.error == IndexOutOfRange
    ensures r == Fail(IndexOutOfRange) ==>
              exists j: nat :: j < |s.pieces| && Free(s, j) && j >= |have| && PassedOver(s, have, 0, j)
  {
    var k :- Scan(s, have, 0);
    Ok(Claim(s.(inProgress := s.inProgress + {k}), k))
  }

  /** Selection succeeds exactly when some piece is eligible and no free piece
      before it lies past the end of the bitfield; the piece chosen is then
      the lowest eligible one. */
  lemma SelectionIsLowestEligible(s: Session, have: seq<bool>, k: nat)
    requires Eligible(s, have, k) && PassedOver(s, have, 0, k)
    ensures GetPieceRequest(s, have).Ok?
    ensures GetPieceRequest(s, have).value.index == k
  {
    var r := GetPieceRequest(s, have);
    assert !PassedOver(s, have, 0, |s.pieces|) by {
      assert k < |s.pieces| && Free(s, k) && have[k];
    }
    forall j: nat | j < |s.pieces| && Free(s, j) && j >= |have|
      ensures !PassedOver(s, have, 0, j)
    {
      assert k < j;
    }
    assert r.Ok?;
  }

  /** With a bitfield covering the whole table, selection never raises
      IndexError: it either claims a piece or reports that none is eligible. */
  lemma FullBitfieldNeverOutOfRange(s: Session, have: seq<bool>)
    requires |have| >= |s.pieces|
    ensures GetPieceRequest(s, have).Ok? || GetPieceRequest(s, have) == Fail(NoEligiblePiece)
  {
  }

  /** Claiming keeps the index sets disjoint and inside the table. */
  lemma ClaimPreservesValid(s: Session, have: seq<bool>)
    requires Valid(s)
    requires GetPieceRequest(s, have).Ok?
    ensures Valid(GetPieceRequest(s, have).value.session)
  {
  }

  /** `on_block_received(piece_idx, begin, data)`: saves the block, and once
      the piece is complete checks its SHA-1 (`sha1`, foreign code) against
      the manifest. On a match the piece goes to the output queue and moves
      from in-progress to received; on a mismatch its data is flushed. */
  function OnBlockReceived(s: Session, idx: nat, begin: int, data: seq<byte>, sha1: seq<byte> -> seq<byte>): (r: Step)
    // Nothing but piece `idx` and the two sets and queue ever change.
    ensures r.session.torrent == s.torrent && r.session.pieceSize == s.pieceSize
    ensures r.session.numberOfPieces == s.numberOfPieces && |r.session.pieces| == |s.pieces|
    ensures forall j :: 0 <= j < |s.pieces| && j != idx ==> r.session.pieces[j] == s.pieces[j]
    // An index past the table raises IndexError before anything changes.
    ensures idx >= |s.pieces| ==> r == Step(s, Some(IndexOutOfRange))
    // Verified pieces stay verified; the queue only grows, by at most one
    // write, and only with bytes whose digest is the manifest's hash.
    ensures s.received <= r.session.received <= s.received + {idx}
    ensures s.inProgress - {idx} <= r.session.inProgress <= s.inProgress
    ensures s.queue <= r.session.queue && |r.session.queue| <= |s.queue| + 1
    ensures |r.session.queue| == |s.queue| + 1 ==>
              && idx < |s.pieces|
              && r.session.queue[|s.queue|] == Write(idx * s.pieceSize, r.session.queue[|s.queue|].data)
              && Content(SaveBlock(s.pieces[idx], begin, data)) == Some(r.session.queue[|s.queue|].data)
              && GetPieceHash(s.torrent, idx) == Ok(sha1(r.session.queue[|s.queue|].data))
              && r.session.received == s.received + {idx}
              && r.session.inProgress == s.inProgress - {idx}
              && r.session.pieces[idx] == SaveBlock(s.pieces[idx], begin, data)
    // An incomplete piece only records the block.
    ensures idx < |s.pieces| && !IsComplete(SaveBlock(s.pieces[idx], begin, data)) ==>
              r == Step(s.(pieces := s.pieces[idx := SaveBlock(s.pieces[idx], begin, data)]), None)
    // A complete piece whose digest differs is flushed; nothing else changes.
    ensures idx < |s.pieces| && IsComplete(SaveBlock(s.pieces[idx], begin, data))
            && Content(SaveBlock(s.pieces[idx], begin, data)).Some?
            && GetPieceHash(s.torrent, idx).Ok?
            && sha1(Content(SaveBlock(s.pieces[idx], begin, data)).value) != GetPieceHash(s.torrent, idx).value ==>
              r == Step(s.(pieces := s.pieces[idx := Flush(SaveBlock(s.pieces[idx], begin, data))]), None)
    // A complete piece whose digest matches is written out and sealed; it
    // raises KeyError when the piece was not in progress.
    ensures idx < |s.pieces| && IsComplete(SaveBlock(s.pieces[idx], begin, data))
            && Content(SaveBlock(s.pieces[idx], begin, data)).Some?
            && GetPieceHash(s.torrent, idx).Ok?
            && sha1(Content(SaveBlock(s.pieces[idx], begin, data)).value) == GetPieceHash(s.torrent, idx).value ==>
              && |r.session.queue| == |s.queue| + 1
              && (r.error.None? <==> idx in s.inProgress)
              && (r.error.Some? ==> r.error == Some(KeyMissing))
    // A complete piece with a block lacking data raises TypeError in the join.
    ensures idx < |s.pieces| && IsComplete(SaveBlock(s.pieces[idx], begin, data))
            && Content(SaveBlock(s.pieces[idx], begin, data)).None? ==>
              r == Step(s.(pieces := s.pieces[idx := SaveBlock(s.pieces[idx], begin, data)]), Some(TypeMismatch))
  {
    if idx >= |s.pieces| then Step(s, Some(IndexOutOfRange))
    else
      var p := SaveBlock(s.pieces[idx], begin, data);
      var saved := s.(pieces := s.pieces[idx := p]);
      if !IsComplete(p) then Step(saved, None)
      else match Content(p)
        case None => Step(saved, Some(TypeMismatch))
        case Some(c) =>
          match GetPieceHash(s.torrent, idx)
          case Fail(e) => Step(saved, Some(e))
          case Ok(expected) =>
            if sha1(c) != expected then
              Step(s.(pieces := s.pieces[idx := Flush(p)]), None)
            else
              var sealed := saved.(queue := s.queue + [Write(idx * s.pieceSize, c)],
                                   received := s.received + {idx});
              if idx in s.inProgress then Step(sealed.(inProgress := s.inProgress - {idx}), None)
              else Step(sealed, Some(KeyMissing))
  }

  /** Receiving a block keeps the index sets disjoint and inside the table,
      whatever the outcome. */
  lemma OnBlockReceivedPreservesValid(s: Session, idx: nat, begin: int, data: seq<byte>, sha1: seq<byte> -> seq<byte>)
    requires Valid(s)
    ensures Valid(OnBlockReceived(s, idx, begin, data, sha1).session)
  {
  }

  /** A write holds, at the offset of some piece of a table of `n` pieces,
      bytes whose digest is the manifest's hash for that piece. */
  ghost predicate VerifiedWrite(t: Torrent, pieceSize: int, n: nat, sha1: seq<byte> -> seq<byte>, w: Write)
  {
    exists k: nat :: k < n && w.offset == k * pieceSize && GetPieceHash(t, k) == Ok(sha1(w.data))
  }

  /** Every write on the output queue is verified. */
  ghost predicate QueueVerified(s: Session, sha1: seq<byte> -> seq<byte>)
  {
    forall w :: w in s.queue ==> VerifiedWrite(s.torrent, s.pieceSize, |s.pieces|, sha1, w)
  }

  /** The output queue is never given unverified data. */
  lemma OnBlockReceivedKeepsQueueVerified(s: Session, idx: nat, begin: int, data: seq<byte>, sha1: seq<byte> -> seq<byte>)
    requires QueueVerified(s, sha1)
    ensures QueueVerified(OnBlockReceived(s, idx, begin, data, sha1).session, sha1)
  {
    var r := OnBlockReceived(s, idx, begin, data, sha1).session;
    assert r.torrent == s.torrent && r.pieceSize == s.pieceSize && |r.pieces| == |s.pieces|;
    if |r.queue| == |s.queue| {
      assert r.queue == s.queue;
    } else {
      var w := r.queue[|s.queue|];
      assert r.queue == s.queue + [w];
      assert VerifiedWrite(s.torrent, s.pieceSize, |s.pieces|, sha1, w) by {
        assert idx < |s.pieces| && w.offset == idx * s.pieceSize && GetPieceHash(s.torrent, idx) == Ok(sha1(w.data));
      }
    }
  }

  /** A claimed piece is released only by being written out. A block that
      completes a piece whose digest does not match writes nothing (the piece
      is flushed instead), so the piece stays claimed and no later selection
      can ever hand it out again. */
  lemma UnwrittenPieceStaysClaimed(s: Session, idx: nat, begin: int, data: seq<byte>, sha1: seq<byte> -> seq<byte>, have: seq<bool>)
    requires idx in s.inProgress
    ensures var after := OnBlockReceived(s, idx, begin, data, sha1).session;
            |after.queue| == |s.queue| ==>
              && idx in after.inProgress
              && (GetPieceRequest(after, have).Ok? ==> GetPieceRequest(after, have).value.index != idx)
  {
  }

  /** A flushed piece keeps its flags while its data are gone, so the next
      block for it finds it "complete" and the join raises TypeError —
      unless the block starts where every block of the piece starts. Nothing
      is released or written. */
  lemma FlushedPieceRaisesOnNextBlock(s: Session, idx: nat, begin: int, data: seq<byte>, sha1: seq<byte> -> seq<byte>, j: nat)
    requires idx < |s.pieces| && IsComplete(s.pieces[idx])
    requires forall k :: 0 <= k < |s.pieces[idx].blocks| ==> s.pieces[idx].blocks[k].data.None?
    requires j < |s.pieces[idx].blocks| && s.pieces[idx].blocks[j].begin != begin
    ensures var next := OnBlockReceived(s, idx, begin, data, sha1);
            && next.error == Some(TypeMismatch)
            && next.session.inProgress == s.inProgress
            && next.session.received == s.received
            && next.session.queue == s.queue
  {
  }

  /** A further block for a piece that is already verified and still holds
      its data seals it a second time: the piece is written to the queue
      again, and deleting it from the in-progress set raises KeyError. */
  lemma DuplicateDeliveryRewrites(s: Session, idx: nat, begin: int, data: seq<byte>, sha1: seq<byte> -> seq<byte>)
    requires Valid(s) && idx in s.received
    requires IsComplete(SaveBlock(s.pieces[idx], begin, data))
    requires Content(SaveBlock(s.pieces[idx], begin, data)).Some?
    requires GetPieceHash(s.torrent, idx).Ok?
    requires sha1(Content(SaveBlock(s.pieces[idx], begin, data)).value) == GetPieceHash(s.torrent, idx).value
    ensures var r := OnBlockReceived(s, idx, begin, data, sha1);
            && |r.session.queue| == |s.queue| + 1
            && r.error == Some(KeyMissing)
  {
  }
}

=== FILE: torrent.dfy ===
/** The manifest (`.torrent` file) after bencode decoding, and the queries
    the download makes of it: item lookup, the expected hash of one piece,
    the info hash, and the total size. */
module Manifest {
  import opened Common

  /** A decoded bencode value. Dictionary keys are byte strings in the
      source; every key the model looks up is ASCII, so keys are strings. */
  datatype BValue =
    | BInt(n: int)
    | BBytes(bytes: seq<byte>)
    | BList(items: seq<BValue>)
    | BDict(entries: map<string, BValue>)

  /** The decoded top-level dictionary of the manifest. */
  datatype Torrent = Torrent(meta: map<string, BValue>)

  /** Length in bytes of one SHA-1 digest in the `pieces` string. */
  const HashLength: nat := 20

  /** `torrent[key]`: the top-level value, or None when the key is absent. */
  function GetItem(t: Torrent, key: string): (r: Option<BValue>)
    ensures r.None? <==> key !in t.meta
    ensures r.Some? ==> r.value == t.meta[key]
  {
    if key in t.meta then Some(t.meta[key]) else None
  }

  /** `self.info.get(b'info', {})` used as a dictionary: an absent entry is
      the empty dictionary, anything other than a dictionary fails on the
      next `.get` or `in`. */
  function InfoDict(t: Torrent): (r: Result<map<string, BValue>>)
    ensures "info" !in t.meta ==> r == Ok(map[])
    ensures r.Ok? && "info" in t.meta ==> t.meta["info"] == BDict(r.value)
    ensures r.Fail? ==> r.error == TypeMismatch && "info" in t.meta && !t.meta["info"].BDict?
  {
    if "info" !in t.meta then Ok(map[])
    else match t.meta["info"]
      case BDict(d) => Ok(d)
      case _ => Fail(TypeMismatch)
  }

  /** The `pieces` string of the info dictionary, empty when absent. */
  function PiecesString(t: Torrent): (r: Result<seq<byte>>)
    ensures r.Ok? ==> InfoDict(t).Ok?
    ensures InfoDict(t).Ok? && "pieces" !in InfoDict(t).value ==> r == Ok([])
    ensures r.Ok? && r.value != [] ==>
              "pieces" in InfoDict(t).value && InfoDict(t).value["pieces"] == BBytes(r.value)
  {
    var info :- InfoDict(t);
    if "pieces" !in info then Ok([])
    else match info["pieces"]
      case BBytes(p) => Ok(p)
      case _ => Fail(TypeMismatch)
  }

  /** `get_piece_hash(i)`: the `i`-th 20-byte slice of the `pieces` string,
      cut short or empty where the string runs out. */
  function GetPieceHash(t: Torrent, i: nat): (r: Result<seq<byte>>)
    ensures r.Ok? <==> PiecesString(t).Ok?
    ensures r.Ok? ==> |r.value| <= HashLength
    ensures r.Ok? && HashLength * i >= |PiecesString(t).value| ==> r.value == []
    ensures r.Ok? && HashLength * i + HashLength <= |PiecesString(t).value| ==>
              r.value == PiecesString(t).value[HashLength * i .. HashLength * i + HashLength]
    ensures r.Ok? && HashLength * i < |PiecesString(t).value| < HashLength * i + HashLength ==>
              r.value == PiecesString(t).value[HashLength * i..]
  {
    var pieces :- PiecesString(t);
    Ok(Slice(pieces, HashLength * i, HashLength * i + HashLength))
  }

  /** Python truthiness of a decoded value. */
  predicate Truthy(v: BValue)
  {
    match v
    case BInt(n) => n != 0
    case BBytes(b) => |b| > 0
    case BList(items) => |items| > 0
    case BDict(entries) => |entries| > 0
  }

  /** `info_hash`: the digest of the re-encoded info dictionary. Bencode
      encoding and SHA-1 are foreign code and arrive together as `encodeDigest`. */
  function InfoHash(t: Torrent, encodeDigest: BValue -> seq<byte>): (r: Result<seq<byte>>)
    ensures r.Fail? <==> "info" !in t.meta || !Truthy(t.meta["info"])
    ensures r.Fail? ==> r.error == NoInfo
    ensures r.Ok? ==> r.value == encodeDigest(t.meta["info"])
  {
    if "info" !in t.meta || !Truthy(t.meta["info"]) then Fail(NoInfo)
    else Ok(encodeDigest(t.meta["info"]))
  }

  /** `int(f.get(b'length', 0))` for one entry of the `files` list. */
  function FileLength(f: BValue): Result<int>
  {
    match f
    case BDict(d) =>
      if "length" !in d then Ok(0)
      else (match d["length"]
        case BInt(n) => Ok(n)
        case _ => Fail(TypeMismatch))
    case _ => Fail(TypeMismatch)
  }

  /** A `files` entry whose length the sum can read. */
  predicate WellFormedFile(f: BValue)
  {
    f.BDict? && ("length" in f.entries ==> f.entries["length"].BInt?)
  }

  /** The declared length of a well-formed `files` entry, 0 when it has none. */
  function FileLengthOrZero(f: BValue): int
    requires WellFormedFile(f)
  {
    if "length" in f.entries then f.entries["length"].n else 0
  }

  /** Reference sum of the declared lengths, read from the end of the list. */
  ghost function TotalDeclared(files: seq<BValue>): int
    requires forall k :: 0 <= k < |files| ==> WellFormedFile(files[k])
  {
    if files == [] then 0
    else TotalDeclared(files[..|files| - 1]) + FileLengthOrZero(files[|files| - 1])
  }

  /** `sum(int(f.get(b'length', 0)) for f in files)`, failing on the first
      entry whose length cannot be read. */
  function SumFileLengths(files: seq<BValue>): (r: Result<int>)
    ensures r.Ok? <==> forall k :: 0 <= k < |files| ==> WellFormedFile(files[k])
  {
    if files == [] then Ok(0)
    else
      var first :- FileLength(files[0]);
      var rest :- SumFileLengths(files[1..]);
      Ok(first + rest)
  }

  /** The left-to-right sum agrees with the reference sum: every entry counts
      its declared length, a missing length counting 0. */
  lemma {:induction false} SumFileLengthsIsTotal(files: seq<BValue>)
    requires forall k :: 0 <= k < |files| ==> WellFormedFile(files[k])
    ensures SumFileLengths(files) == Ok(TotalDeclared(files))
  {
    if files != [] {
      SumFileLengthsIsTotal(files[1..]);
      TotalDeclaredFirst(files);
    }
  }

  /** Peeling the first entry off the reference sum. */
  lemma {:induction false} TotalDeclaredFirst(files: seq<BValue>)
    requires |files| > 0
    requires forall k :: 0 <= k < |files| ==> WellFormedFile(files[k])
    ensures TotalDeclared(files) == FileLengthOrZero(files[0]) + TotalDeclared(files[1..])
    decreases |files|
  {
    if |files| > 1 {
      var init := files[..|files| - 1];
      assert init[1..] == files[1..|files| - 1];
      assert files[1..][..|files[1..]| - 1] == files[1..|files| - 1];
      TotalDeclaredFirst(init);
    } else {
      assert files[..0] == [] && files[1..] == [];
    }
  }

  /** The sum over whatever `files` holds. Python iterates it: a list
      yields its entries; an empty byte string or empty dictionary yields
      nothing and sums to 0; a non-empty one yields integers or keys, which
      have no `.get`; an integer is not iterable. */
  function FilesSize(files: BValue): (r: Result<int>)
    ensures files.BList? ==> r == SumFileLengths(files.items)
    ensures files.BBytes? ==> (r.Ok? <==> files.bytes == [])
    ensures files.BDict? ==> (r.Ok? <==> files.entries == map[])
    ensures files.BInt? ==> r == Fail(TypeMismatch)
    ensures !files.BList? && r.Ok? ==> r.value == 0
    ensures !files.BList? && r.Fail? ==> r.error == TypeMismatch
  {
    match files
    case BList(fs) => SumFileLengths(fs)
    case BBytes(b) => if b == [] then Ok(0) else Fail(TypeMismatch)
    case BDict(m) => if m == map[] then Ok(0) else Fail(TypeMismatch)
    case BInt(_) => Fail(TypeMismatch)
  }

  /** `size`: the single-file `length`, else the sum over `files`, else an error. */
  function Size(t: Torrent): (r: Result<int>)
    ensures InfoDict(t).Fail? ==> r == Fail(TypeMismatch)
    ensures InfoDict(t).Ok? && "length" in InfoDict(t).value ==>
              (InfoDict(t).value["length"].BInt? <==> r.Ok?) &&
              (r.Ok? ==> r.value == InfoDict(t).value["length"].n)
    ensures InfoDict(t).Ok? && "length" !in InfoDict(t).value && "files" in InfoDict(t).value ==>
              r == FilesSize(InfoDict(t).value["files"])
    ensures InfoDict(t).Ok? && "length" !in InfoDict(t).value && "files" !in InfoDict(t).value ==>
              r == Fail(NoLength)
  {
    var info :- InfoDict(t);
    if "length" in info then
      match info["length"]
      case BInt(n) => Ok(n)
      case _ => Fail(TypeMismatch)
    else if "files" in info then FilesSize(info["files"])
    else Fail(NoLength)
  }

  /** A multi-file manifest whose entries all carry readable lengths has
      the sum of those lengths as its size. */
  lemma MultiFileSize(t: Torrent, files: seq<BValue>)
    requires "info" in t.meta && t.meta["info"].BDict?
    requires "length" !in t.meta["info"].entries
    requires "files" in t.meta["info"].entries && t.meta["info"].entries["files"] == BList(files)
    requires forall k :: 0 <= k < |files| ==> WellFormedFile(files[k])
    ensures Size(t) == Ok(TotalDeclared(files))
  {
    SumFileLengthsIsTotal(files);
  }
}

=== FILE: tracker.dfy ===
/** The tracker side: the announce parameters, the checks on the decoded
    announce response, and the compact peer list (6-byte records, an IPv4
    address then a big-endian port, as in BEP 23). The HTTP round trip and
    bencode decoding are not modelled: the response arrives decoded. */
module Tracker {
  import opened Common
  import opened Manifest

  /** A peer from the compact list: its four address bytes and its port. */
  datatype PeerAddr = PeerAddr(ip: seq<byte>, port: int)

  /** Bytes per record of the compact list. */
  const RecordLength: nat := 6

  /** The address the client treats as its own and skips (hard-coded). */
  const SelfAddress: seq<byte> := [192, 168, 99, 1]

  /** The port announced to the tracker. */
  const ListenPort: int := 59696

  /** `handle_bytes`: one peer per 6-byte record, in record order, skipping
      the client's own address. A record too short for an address fails in
      the address conversion; one with an address but no whole port fails in
      the port unpack — unless its address is the client's own, which is
      skipped before the port is looked at. */
  function HandleBytes(data: seq<byte>): (r: Result<seq<PeerAddr>>)
    ensures r.Ok? ==> forall k :: 0 <= k < |r.value| ==>
              |r.value[k].ip| == 4 && r.value[k].ip != SelfAddress && 0 <= r.value[k].port < Two16
    ensures r.Ok? ==> |r.value| <= |data| / RecordLength
    ensures r.Fail? ==> r.error == AddressError || r.error == StructError
    decreases |data|
  {
    if data == [] then Ok([])
    else
      var addr := Take(data, 4);
      var port := Slice(data, 4, 6);
      if |addr| != 4 then Fail(AddressError)
      else if addr == SelfAddress then HandleBytes(Drop(data, RecordLength))
      else if |port| != 2 then Fail(StructError)
      else
        var more :- HandleBytes(Drop(data, RecordLength));
        Ok([PeerAddr(addr, Unpack16(port))] + more)
  }

  /** How the first record decides the result. */
  lemma HandleFirstRecord(data: seq<byte>)
    // A short record fails: without a whole address, or with an address
    // other than the client's own but without a whole port.
    ensures 0 < |data| < 4 ==> HandleBytes(data) == Fail(AddressError)
    ensures 4 <= |data| < RecordLength && data[..4] != SelfAddress ==> HandleBytes(data) == Fail(StructError)
    // The client's own record is skipped, up to 6 bytes of it.
    ensures |data| >= 4 && data[..4] == SelfAddress ==> HandleBytes(data) == HandleBytes(Drop(data, RecordLength))
    // Any other whole record becomes the first peer, ahead of the rest's.
    ensures |data| >= RecordLength && data[..4] != SelfAddress ==>
              && (HandleBytes(data).Ok? <==> HandleBytes(data[RecordLength..]).Ok?)
              && (HandleBytes(data).Ok? ==>
                    HandleBytes(data).value == [PeerAddr(data[..4], Unpack16(data[4..6]))] + HandleBytes(data[RecordLength..]).value)
              && (HandleBytes(data).Fail? ==> HandleBytes(data) == HandleBytes(data[RecordLength..]))
  {
  }

  /** The address bytes of the `k`-th record. */
  function RecordAddr(data: seq<byte>, k: nat): seq<byte>
    requires RecordLength * k + RecordLength <= |data|
  {
    data[RecordLength * k .. RecordLength * k + 4]
  }

  /** The peer the `k`-th record describes. */
  function RecordPeer(data: seq<byte>, k: nat): PeerAddr
    requires RecordLength * k + RecordLength <= |data|
  {
    PeerAddr(RecordAddr(data, k), Unpack16(data[RecordLength * k + 4 .. RecordLength * k + 6]))
  }

  /** A whole number of records, none of them the client's own address, is
      decoded into one peer per record, record `k` giving peer `k`. */
  lemma {:induction false} WholeRecordsDecode(data: seq<byte>)
    requires |data| % RecordLength == 0
    requires forall k: nat :: k < |data| / RecordLength ==> RecordAddr(data, k) != SelfAddress
    ensures HandleBytes(data).Ok?
    ensures |HandleBytes(data).value| == |data| / RecordLength
    ensures forall k: nat :: k < |data| / RecordLength ==> HandleBytes(data).value[k] == RecordPeer(data, k)
    decreases |data|
  {
    if data != [] {
      var rest := data[RecordLength..];
      assert Drop(data, RecordLength) == rest;
      forall k: nat | k < |rest| / RecordLength
        ensures RecordAddr(rest, k) != SelfAddress && RecordPeer(rest, k) == RecordPeer(data, k + 1)
      {
        RecordShift(data, k);
      }
      WholeRecordsDecode(rest);
      var tail := HandleBytes(rest).value;
      assert RecordAddr(data, 0) == Take(data, 4) && RecordAddr(data, 0) != SelfAddress;
      assert data[4..6] == Slice(data, 4, 6);
      assert HandleBytes(data) == Ok([RecordPeer(data, 0)] + tail);
      var peers := HandleBytes(data).value;
      forall k: nat | k < |data| / RecordLength
        ensures peers[k] == RecordPeer(data, k)
      {
        if k > 0 {
          assert peers[k] == tail[k - 1];
        }
      }
    }
  }

  /** Record `k + 1` of a list is record `k` of the list without its first record. */
  lemma RecordShift(data: seq<byte>, k: nat)
    requires RecordLength * (k + 1) + RecordLength <= |data|
    ensures RecordAddr(data[RecordLength..], k) == RecordAddr(data, k + 1)
    ensures RecordPeer(data[RecordLength..], k) == RecordPeer(data, k + 1)
  {
    var rest := data[RecordLength..];
    var o := RecordLength * k;
    assert RecordLength * (k + 1) == o + RecordLength;
    assert rest[o..o + 4] == data[o + RecordLength..o + RecordLength + 4];
    assert rest[o + 4..o + 6] == data[o + RecordLength + 4..o + RecordLength + 6];
  }

  /** The compact encoding of a peer list. */
  function EncodeCompact(peers: seq<PeerAddr>): (r: seq<byte>)
    requires forall k :: 0 <= k < |peers| ==> |peers[k].ip| == 4 && 0 <= peers[k].port < Two16
    ensures |r| == RecordLength * |peers|
  {
    if peers == [] then []
    else peers[0].ip + Pack16(peers[0].port) + EncodeCompact(peers[1..])
  }

  /** Decoding undoes the compact encoding of any list of peers that does not
      include the client's own address. */
  lemma {:induction false} CompactRoundTrip(peers: seq<PeerAddr>)
    requires forall k :: 0 <= k < |peers| ==>
               |peers[k].ip| == 4 && 0 <= peers[k].port < Two16 && peers[k].ip != SelfAddress
    ensures HandleBytes(EncodeCompact(peers)) == Ok(peers)
  {
    if peers != [] {
      var data := EncodeCompact(peers);
      var head := peers[0].ip + Pack16(peers[0].port);
      assert data == head + EncodeCompact(peers[1..]);
      assert Take(data, 4) == peers[0].ip;
      assert Slice(data, 4, 6) == Pack16(peers[0].port);
      assert Drop(data, RecordLength) == EncodeCompact(peers[1..]);
      CompactRoundTrip(peers[1..]);
      assert [peers[0]] + peers[1..] == peers;
    }
  }

  /** The bytes after the last whole record. */
  function Trailer(data: seq<byte>): (r: seq<byte>)
    ensures |r| == |data| % RecordLength
  {
    data[|data| - |data| % RecordLength..]
  }

  /** How a trailing partial record decides the outcome: one of one to three
      bytes fails in the address conversion; one of four or five bytes fails
      in the port unpack unless its address is the client's own, in which
      case it is silently skipped. Whole records before it never fail. */
  lemma {:induction false} TrailerDecides(data: seq<byte>)
    requires forall k: nat :: k < |data| / RecordLength ==> RecordAddr(data, k) != SelfAddress
    ensures 0 < |Trailer(data)| < 4 ==> HandleBytes(data) == Fail(AddressError)
    ensures |Trailer(data)| >= 4 && Trailer(data)[..4] != SelfAddress ==> HandleBytes(data) == Fail(StructError)
    ensures |Trailer(data)| >= 4 && Trailer(data)[..4] == SelfAddress ==> HandleBytes(data).Ok?
    ensures |Trailer(data)| == 0 ==> HandleBytes(data).Ok?
    decreases |data|
  {
    if |data| >= RecordLength {
      var rest := data[RecordLength..];
      assert Drop(data, RecordLength) == rest;
      assert Trailer(rest) == Trailer(data);
      forall k: nat | k < |rest| / RecordLength
        ensures RecordAddr(rest, k) != SelfAddress
      {
        RecordShift(data, k);
      }
      assert RecordAddr(data, 0) == Take(data, 4);
      TrailerDecides(rest);
    } else if |data| >= 4 {
      assert Trailer(data) == data;
      assert Take(data, 4) == data[..4];
      assert Drop(data, RecordLength) == [];
    }
  }

  /** `parse_peers`: the compact form is decoded, the dictionary form is not
      implemented, and any other type has no handler. */
  function ParsePeers(v: BValue): (r: Result<seq<PeerAddr>>)
    ensures v.BBytes? ==> r == HandleBytes(v.bytes)
    ensures v.BDict? ==> r == Fail(NotImplemented)
    ensures !v.BBytes? && !v.BDict? ==> r == Fail(KeyMissing)
  {
    match v
    case BBytes(d) => HandleBytes(d)
    case BDict(_) => Fail(NotImplemented)
    case _ => Fail(KeyMissing)
  }

  /** A continuation byte of a multi-byte UTF-8 sequence. */
  predicate Continuation(b: byte)
  {
    0x80 <= b <= 0xBF
  }

  /** Well-formed UTF-8, the byte sequences of Table 3-7 in section 3.9 of
      the Unicode Standard, which strict `bytes.decode('utf-8')` accepts:
      no stray continuation byte, no overlong form, no surrogate, nothing
      past U+10FFFF and no truncated sequence. */
  predicate WellFormedUtf8(s: seq<byte>)
    decreases |s|
  {
    if s == [] then true
    else if s[0] < 0x80 then WellFormedUtf8(s[1..])
    else if 0xC2 <= s[0] <= 0xDF then
      |s| >= 2 && Continuation(s[1]) && WellFormedUtf8(s[2..])
    else if 0xE0 <= s[0] <= 0xEF then
      && |s| >= 3
      && (if s[0] == 0xE0 then 0xA0 <= s[1] <= 0xBF
          else if s[0] == 0xED then 0x80 <= s[1] <= 0x9F
          else Continuation(s[1]))
      && Continuation(s[2])
      && WellFormedUtf8(s[3..])
    else if 0xF0 <= s[0] <= 0xF4 then
      && |s| >= 4
      && (if s[0] == 0xF0 then 0x90 <= s[1] <= 0xBF
          else if s[0] == 0xF4 then 0x80 <= s[1] <= 0x8F
          else Continuation(s[1]))
      && Continuation(s[2]) && Continuation(s[3])
      && WellFormedUtf8(s[4..])
    else false
  }

  /** ASCII text is well-formed UTF-8. */
  lemma {:induction false} AsciiIsUtf8(s: seq<byte>)
    requires forall k :: 0 <= k < |s| ==> s[k] < 0x80
    ensures WellFormedUtf8(s)
    decreases |s|
  {
    if s != [] {
      AsciiIsUtf8(s[1..]);
    }
  }

  /** What the decoder rejects: a lone continuation byte, an overlong `/`,
      an encoded surrogate, a code point past U+10FFFF and a cut-off
      sequence; and a two-byte `é` it accepts. */
  lemma Utf8Examples()
    ensures !WellFormedUtf8([0x80])
    ensures !WellFormedUtf8([0xC0, 0xAF])
    ensures !WellFormedUtf8([0xED, 0xA0, 0x80])
    ensures !WellFormedUtf8([0xF4, 0x90, 0x80, 0x80])
    ensures !WellFormedUtf8([0xE2, 0x82])
    ensures WellFormedUtf8([0xC3, 0xA9])
  {
    assert [0xC3, 0xA9][2..] == [];
  }

  /** `get_peers` on a decoded announce response: a `failure reason` wins,
      then a missing `peers` entry; otherwise the peers are parsed. The
      reason is decoded for the log before RuntimeError is raised, so a
      reason that is not a byte string has no `.decode` and one that is not
      UTF-8 fails to decode. */
  function GetPeers(response: map<string, BValue>): (r: Result<seq<PeerAddr>>)
    ensures "failure reason" in response ==> r.Fail?
    ensures "failure reason" in response && !response["failure reason"].BBytes? ==> r == Fail(TypeMismatch)
    ensures "failure reason" in response && response["failure reason"].BBytes? ==>
              (r == Fail(TrackerFailure) <==> WellFormedUtf8(response["failure reason"].bytes)) &&
              (r != Fail(TrackerFailure) ==> r == Fail(UnicodeDecode))
    ensures "failure reason" !in response && "peers" !in response ==> r == Fail(NoPeers)
    ensures r.Ok? <==> "failure reason" !in response && "peers" in response && ParsePeers(response["peers"]).Ok?
    ensures r.Ok? ==> r == ParsePeers(response["peers"])
  {
    if "failure reason" in response then
      match response["failure reason"]
      case BBytes(reason) => if WellFormedUtf8(reason) then Fail(TrackerFailure) else Fail(UnicodeDecode)
      case _ => Fail(TypeMismatch)
    else if "peers" !in response then Fail(NoPeers)
    else ParsePeers(response["peers"])
  }

  /** A tracker that explains its refusal in plain ASCII gets the
      RuntimeError, whatever else the response holds. */
  lemma AsciiFailureReasonRefuses(response: map<string, BValue>, reason: seq<byte>)
    requires "failure reason" in response && response["failure reason"] == BBytes(reason)
    requires forall k :: 0 <= k < |reason| ==> reason[k] < 0x80
    ensures GetPeers(response) == Fail(TrackerFailure)
  {
    AsciiIsUtf8(reason);
  }

  /** An empty compact peer list is accepted and yields no peers. */
  lemma EmptyPeerListAccepted(response: map<string, BValue>)
    requires "failure reason" !in response
    requires "peers" in response && response["peers"] == BBytes([])
    ensures GetPeers(response) == Ok([])
  {
  }

  /** The query parameters of the announce request. */
  datatype Announce = Announce(
    infoHash: seq<byte>, peerId: seq<byte>, compact: int, noPeerId: int,
    event: string, port: int, uploaded: int, downloaded: int, left: int)

  /** `_get_request_params`: the info hash is computed first, then the size;
      nothing has been sent or received, so everything is left. */
  function AnnounceParams(t: Torrent, encodeDigest: BValue -> seq<byte>, peerId: seq<byte>): (r: Result<Announce>)
    ensures InfoHash(t, encodeDigest).Fail? ==> r == Fail(NoInfo)
    ensures InfoHash(t, encodeDigest).Ok? && Size(t).Fail? ==> r == Fail(Size(t).error)
    ensures r.Ok? <==> InfoHash(t, encodeDigest).Ok? && Size(t).Ok?
    ensures r.Ok? ==>
              && r.value.infoHash == InfoHash(t, encodeDigest).value
              && r.value.left == Size(t).value
              && r.value.uploaded == 0 && r.value.downloaded == 0
              && r.value.compact == 1 && r.value.noPeerId == 0
              && r.value.event == "started" && r.value.port == ListenPort
              && r.value.peerId == peerId
  {
    var infoHash :- InfoHash(t, encodeDigest);
    var left :- Size(t);
    Ok(Announce(infoHash, peerId, 1, 0, "started", ListenPort, 0, 0, left))
  }
}

=== FILE: wire.dfy ===
/** The peer wire protocol as the client speaks it: the handshake, the
    `interested` and `request` messages it sends, and the parser that cuts
    one length-prefixed message off the front of the receive buffer. */
module Wire {
  import opened Common

  /** The ASCII bytes of "BitTorrent protocol". */
  const ProtocolName: seq<byte> :=
    [66, 105, 116, 84, 111, 114, 114, 101, 110, 116, 32, 112, 114, 111, 116, 111, 99, 111, 108]

  /** `handshake()`: `struct.pack('>B19s8x20s20s', 19, name, info_hash, peer_id)`. */
  function Handshake(infoHash: seq<byte>, peerId: seq<byte>): (r: seq<byte>)
    ensures |r| == 68
    ensures r[0] == |ProtocolName| == 19
    ensures r[1..20] == ProtocolName
    ensures forall i :: 20 <= i < 28 ==> r[i] == 0
    ensures |infoHash| == 20 ==> r[28..48] == infoHash
    ensures |peerId| == 20 ==> r[48..68] == peerId
  {
    [19] + ProtocolName + Zeros(8) + Fixed(infoHash, 20) + Fixed(peerId, 20)
  }

  /** Message ids of the messages the client reads or writes. */
  const ChokeId: byte := 0
  const UnchokeId: byte := 1
  const InterestedId: byte := 2
  const NotInterestedId: byte := 3
  const HaveId: byte := 4
  const BitfieldId: byte := 5
  const RequestId: byte := 6
  const PieceId: byte := 7

  /** `send_interested`: `struct.pack('>Ib', 1, 2)`. */
  function InterestedMessage(): (r: seq<byte>)
    ensures |r| == 5 && Unpack32(r[..4]) == 1 && r[4] == InterestedId
  {
    Pack32(1) + [InterestedId]
  }

  /** `struct.pack('>IbIII', 13, 6, piece, begin, length)`; struct.error when
      a field does not fit an unsigned 32-bit integer. */
  function RequestMessage(piece: int, begin: int, length: int): (r: Result<seq<byte>>)
    ensures r.Ok? <==> 0 <= piece < Two32 && 0 <= begin < Two32 && 0 <= length < Two32
    ensures r.Fail? ==> r.error == StructError
    ensures r.Ok? ==>
              && |r.value| == 17
              && Unpack32(r.value[..4]) == 13
              && r.value[4] == RequestId
              && Unpack32(r.value[5..9]) == piece
              && Unpack32(r.value[9..13]) == begin
              && Unpack32(r.value[13..17]) == length
  {
    if 0 <= piece < Two32 && 0 <= begin < Two32 && 0 <= length < Two32 then
      var r := Pack32(13) + [RequestId] + Pack32(piece) + Pack32(begin) + Pack32(length);
      assert r[..4] == Pack32(13) && r[5..9] == Pack32(piece);
      assert r[9..13] == Pack32(begin) && r[13..17] == Pack32(length);
      Ok(r)
    else Fail(StructError)
  }

  /** One message as the receive loop recognises it. */
  datatype Message =
    | KeepAlive
    | Choke
    | Unchoke
    | Interested
    | NotInterested
    | Have                                            // payload is skipped
    | Bitfield(payload: seq<byte>)
    | PieceData(index: nat, begin: nat, block: seq<byte>)
    | BadPiece                                        // struct.error unpacking a piece frame

  /** What the receive loop does with the front of its buffer: wait for more
      bytes, handle one message and go on with `rest`, or meet an id it does
      not know (and consume nothing). */
  datatype Framing = Wait | Frame(msg: Message, rest: seq<byte>) | Unknown(id: byte)

  /** The length prefix of a buffer of at least 4 bytes. */
  function DeclaredLength(buf: seq<byte>): nat
    requires |buf| >= 4
  {
    Unpack32(buf[..4])
  }

  /** `struct.unpack('>IbII' + str(length - 9) + 's', data)` on the first
      `4 + length` bytes of the buffer. The format is malformed when
      `length < 9` and the sizes disagree when fewer bytes are there. */
  function ParsePiece(data: seq<byte>, length: nat): (m: Message)
    ensures m.PieceData? <==> length >= 9 && |data| == 4 + length
    ensures m.PieceData? ==>
              && m.index == Unpack32(data[5..9])
              && m.begin == Unpack32(data[9..13])
              && m.block == data[13..] && |m.block| == length - 9
    ensures !m.PieceData? ==> m == BadPiece
  {
    if length >= 9 && |data| == 4 + length then
      PieceData(Unpack32(data[5..9]), Unpack32(data[9..13]), data[13..])
    else BadPiece
  }

  /** The buffer gets past all three waiting conditions with a frame that
      is not a keep-alive, so its id byte is read. */
  predicate HoldsFrame(buf: seq<byte>)
  {
    |buf| >= 5 && 0 < DeclaredLength(buf) <= |buf|
  }

  /** One pass of the inner receive loop over `buf`. As in the source, a
      frame is taken as complete once the buffer holds `length` bytes — not
      `4 + length` — and the short slices then taken are Python's clamped ones. */
  function NextFrame(buf: seq<byte>): (r: Framing)
    // Waiting consumes nothing and happens exactly on these three conditions.
    ensures r.Wait? <==> |buf| < 4 || |buf| < DeclaredLength(buf) || (DeclaredLength(buf) > 0 && |buf| < 5)
    // A keep-alive consumes exactly its 4-byte prefix.
    ensures |buf| >= 4 && DeclaredLength(buf) == 0 ==> r == Frame(KeepAlive, buf[4..])
    // Any other frame needs the id byte; an unknown id consumes nothing.
    ensures r.Unknown? ==> |buf| >= 5 && r.id == buf[4] && r.id !in {0, 1, 2, 3, 4, 5, 7}
    ensures r.Frame? && r.msg != KeepAlive ==> |buf| >= 5 && DeclaredLength(buf) > 0
    // Every handled frame is cut off the front of the buffer.
    ensures r.Frame? ==> |r.rest| < |buf| && r.rest == buf[|buf| - |r.rest|..]
    // Handled ids other than `have` consume exactly `4 + length` bytes when
    // they are all there, and the whole buffer otherwise.
    ensures r.Frame? && r.msg != KeepAlive && r.msg != Have ==>
              r.rest == Drop(buf, 4 + DeclaredLength(buf))
    // `have` consumes 5 bytes more than its frame.
    ensures r.Frame? && r.msg == Have ==> r.rest == Drop(buf, 9 + DeclaredLength(buf))
    // A bitfield carries the bytes after the id, up to the end of the frame.
    ensures r.Frame? && r.msg.Bitfield? ==>
              buf[4] == BitfieldId && r.msg.payload == Slice(buf, 5, 4 + DeclaredLength(buf))
    ensures r.Frame? && (r.msg.PieceData? || r.msg == BadPiece) ==>
              buf[4] == PieceId && r.msg == ParsePiece(Take(buf, 4 + DeclaredLength(buf)), DeclaredLength(buf))
    ensures r.Frame? && r.msg == Unchoke ==> buf[4] == UnchokeId
    // Once a non-empty frame is there, its id byte alone picks the message,
    // and an id outside the handled seven is exactly what comes back unknown.
    ensures HoldsFrame(buf) ==>
              && (buf[4] == ChokeId ==> r.Frame? && r.msg == Choke)
              && (buf[4] == UnchokeId ==> r.Frame? && r.msg == Unchoke)
              && (buf[4] == InterestedId ==> r.Frame? && r.msg == Interested)
              && (buf[4] == NotInterestedId ==> r.Frame? && r.msg == NotInterested)
              && (buf[4] == HaveId ==> r.Frame? && r.msg == Have)
              && (buf[4] == BitfieldId ==> r.Frame? && r.msg.Bitfield?)
              && (buf[4] == PieceId ==> r.Frame? && (r.msg.PieceData? || r.msg == BadPiece))
              && (r == Unknown(buf[4]) <==> buf[4] !in {0, 1, 2, 3, 4, 5, 7})
  {
    if |buf| < 4 then Wait
    else
      var length := DeclaredLength(buf);
      if |buf| < length then Wait
      else if length == 0 then Frame(KeepAlive, buf[4..])
      else if |buf| < 5 then Wait
      else
        var id := buf[4];
        var rest := Drop(buf, 4 + length);
        if id == ChokeId then Frame(Choke, rest)
        else if id == UnchokeId then Frame(Unchoke, rest)
        else if id == InterestedId then Frame(Interested, rest)
        else if id == NotInterestedId then Frame(NotInterested, rest)
        else if id == HaveId then Frame(Have, Drop(buf, 9 + length))
        else if id == BitfieldId then Frame(Bitfield(Slice(buf, 5, 4 + length)), rest)
        else if id == PieceId then Frame(ParsePiece(Take(buf, 4 + length), length), rest)
        else Unknown(id)
  }

  /** The messages a peer can send that the loop reads back unchanged. */
  predicate Encodable(m: Message)
  {
    match m
    case Bitfield(p) => 1 + |p| < Two32
    case PieceData(i, b, block) => i < Two32 && b < Two32 && 9 + |block| < Two32
    case Have => false
    case BadPiece => false
    case _ => true
  }

  /** A peer's encoding of a message: `[length][id][payload]`, or the bare
      zero length of a keep-alive. */
  function Encode(m: Message): (r: seq<byte>)
    requires Encodable(m)
    ensures |r| >= 4 && Unpack32(r[..4]) == |r| - 4
  {
    match m
    case KeepAlive => Pack32(0)
    case Choke => Pack32(1) + [ChokeId]
    case Unchoke => Pack32(1) + [UnchokeId]
    case Interested => Pack32(1) + [InterestedId]
    case NotInterested => Pack32(1) + [NotInterestedId]
    case Bitfield(p) => Pack32(1 + |p|) + [BitfieldId] + p
    case PieceData(i, b, block) => Pack32(9 + |block|) + [PieceId] + Pack32(i) + Pack32(b) + block
  }

  /** `have` as a peer sends it: length 5, id 4, a 4-byte piece index. */
  function EncodeHave(index: nat): (r: seq<byte>)
    requires index < Two32
    ensures |r| == 9 && Unpack32(r[..4]) == 5 && r[4] == HaveId
  {
    Pack32(5) + [HaveId] + Pack32(index)
  }

  /** A complete frame at the front of the buffer is read back as the message
      it encodes, and exactly its bytes are consumed. */
  lemma FrameRoundTrip(m: Message, rest: seq<byte>)
    requires Encodable(m)
    ensures NextFrame(Encode(m) + rest) == Frame(m, rest)
  {
    var e := Encode(m);
    var buf := e + rest;
    assert buf[..4] == e[..4];
    assert buf[4 + (|e| - 4)..] == rest;
    if m.PieceData? {
      var data := Take(buf, |e|);
      assert data == e;
      assert e[5..9] == Pack32(m.index);
      assert e[9..13] == Pack32(m.begin);
      assert e[13..] == m.block;
    } else if m.Bitfield? {
      assert buf[5..|e|] == m.payload;
    } else if m != KeepAlive {
      assert buf[4] == e[4];
    }
  }

  /** The client's own `interested` message reads back as `interested`. */
  lemma InterestedRoundTrip(rest: seq<byte>)
    ensures NextFrame(InterestedMessage() + rest) == Frame(Interested, rest)
  {
    assert InterestedMessage() == Encode(Interested);
    FrameRoundTrip(Interested, rest);
  }

  /** A `have` frame swallows the first 5 bytes of whatever follows it. */
  lemma HaveSwallowsFiveBytes(index: nat, rest: seq<byte>)
    requires index < Two32
    ensures NextFrame(EncodeHave(index) + rest) == Frame(Have, Drop(rest, 5))
  {
    var buf := EncodeHave(index) + rest;
    assert buf[..4] == EncodeHave(index)[..4];
    assert buf[4] == HaveId;
    assert Drop(buf, 14) == Drop(rest, 5);
  }

  /** A piece frame shorter than its 9-byte header cannot be unpacked: the
      block-length format gets a negative count. */
  lemma ShortPieceFrameIsBad(buf: seq<byte>)
    requires HoldsFrame(buf) && buf[4] == PieceId && DeclaredLength(buf) < 9
    ensures NextFrame(buf) == Frame(BadPiece, Drop(buf, 4 + DeclaredLength(buf)))
  {
  }

  /** A frame with at least 4 payload bytes that has arrived only in part —
      all but between 1 and 4 of its bytes, and at least 5 of them — is
      already handled: the partial frame is consumed whole. */
  lemma PartialFrameConsumed(m: Message, k: nat)
    requires Encodable(m) && m != KeepAlive
    requires 5 <= k < |Encode(m)| && |Encode(m)| - 4 <= k
    ensures NextFrame(Encode(m)[..k]).Frame?
    ensures NextFrame(Encode(m)[..k]).rest == []
  {
    var e := Encode(m);
    assert e[..k][..4] == e[..4];
    assert e[..k][4] == e[4];
  }

  /** Delivery in two reads changes what is decoded: the first 5 bytes of a
      3-byte bitfield frame are taken for an empty bitfield, whereas the
      whole frame carries all three bytes. */
  lemma SplitDeliveryDiffers()
    ensures NextFrame([0, 0, 0, 4, 5]) == Frame(Bitfield([]), [])
    ensures NextFrame([0, 0, 0, 4, 5, 255, 255, 255]) == Frame(Bitfield([255, 255, 255]), [])
  {
    assert [0, 0, 0, 4, 5, 255, 255, 255][5..8] == [255, 255, 255];
  }

  /** The 8 bits of one byte, most significant first. */
  function ByteBits(b: byte): (r: seq<bool>)
    ensures |r| == 8
    ensures r[0] <==> b >= 128
    ensures r[7] <==> b % 2 == 1
  {
    [b / 128 % 2 == 1, b / 64 % 2 == 1, b / 32 % 2 == 1, b / 16 % 2 == 1,
     b / 8 % 2 == 1, b / 4 % 2 == 1, b / 2 % 2 == 1, b % 2 == 1]
  }

  /** `bitstring.BitArray(payload)`: the bits of the bytes in order, each byte
      most significant bit first. */
  function Bits(bs: seq<byte>): (r: seq<bool>)
    ensures |r| == 8 * |bs|
    ensures forall i, k :: 0 <= i < |bs| && 0 <= k < 8 ==> r[8 * i + k] == ByteBits(bs[i])[k]
  {
    if bs == [] then []
    else
      var tail := Bits(bs[1..]);
      var r := ByteBits(bs[0]) + tail;
      forall i, k | 1 <= i < |bs| && 0 <= k < 8
        ensures r[8 * i + k] == ByteBits(bs[i])[k]
      {
        assert r[8 * i + k] == tail[8 * (i - 1) + k];
        assert bs[i] == bs[1..][i - 1];
      }
      r
  }
}
